=== FILE: README.md ===
# Feed-to-summary pipeline, modelled in Dafny

The system reads a plain list of RSS/Atom feed URLs and fetches every feed. Each entry with a
usable id (its own id, else its link, else its title), up to any entry that raises, becomes an
item with that id, a source, title, description, link and timestamp. Items whose id is already in
the stored post list are dropped. The rest are capped at 110 per run. Each one is meant to be
summarised by an external text-generation model into at most 140 characters. As written, the call
at run.py:67 fails for every item, so no new post is ever stored (see "## Findings"). The new posts
are merged into the store, and the store is sorted newest-first by timestamp.

This project models one run of that pipeline as pure functions:

- `Text`: the Python string primitives the code depends on. These are `str.isspace`, `str.strip`,
  `str.splitlines` (including its full set of line boundaries) and Python's lexicographic order
  on `str`.
- `Feeds` (`fetch_feeds.py`):
  - `load_feed_urls`.
  - The id fallback chain, the field defaults and the skipping of entries without an id.
  - The per-feed source name.
  - The rule that a feed raising an exception contributes only the items appended before the
    exception.
- `Summarize` (`summarize.py`):
  - Content construction: `"{title}. {description}"`, stripped of surrounding whitespace.
  - Removal of markup tags, following the regular expression `<[^>]+>`.
  - The exact prompt text.
  - Truncation of the model's answer: strip, then the first 140 characters.
- `Store` (the sort in `run.py`): a stable newest-first sort, so that entries with equal
  timestamps keep their relative order.
- `Run` (`run.py` `main`):
  - Filtering out known ids, with the early return when nothing is new.
  - The 110-item cap and the point where the missing API key is detected.
  - Per-item summarisation, where a failed item is skipped.
  - The merge-and-sort of the store.

External services become parameters:
- The feed parser is a function from URL to `Fetch`, which is either `Raised` or
  `Parsed(title, entries)`.
- The model is a function from prompt to `Option<string>`, where `None` stands for any exception
  the call raises.
- The API key is an `Option<string>` read from the environment.

## Notes on the code

- The feed list is one plain file of URLs, one per line (fetch_feeds.py:9-14).
- The text sent to the model is `"{title}. {description}"` with surrounding whitespace stripped.
  Tags are then removed from that whole string (summarize.py:30-34).
- The source name is the feed's `title` whenever that key is present, even if empty. Only a feed
  without the key is named by its URL (fetch_feeds.py:60).
- The API key is read by `get_client`, which runs after feeds are fetched and filtered, and only
  when some item is new (run.py:50-61).

## Model

| member | source | states |
|---|---|---|
| Text.IsSpace | fetch_feeds.py:14 | the characters `str.isspace` accepts, which `strip()` removes here and at summarize.py:30 and summarize.py:50 |
| Text.IsLineBreak | fetch_feeds.py:14 | the line boundaries `str.splitlines` recognises |
| Text.Strip | fetch_feeds.py:14 | the result is a contiguous slice of the input, with only whitespace cut from each side, and begins and ends with a non-space |
| Text.StripPadded | fetch_feeds.py:14 | whitespace padding on both sides of a trimmed string strips back to exactly that string |
| Text.StripIdempotent | summarize.py:50 | stripping twice is the same as stripping once |
| Text.SplitLines | fetch_feeds.py:14 | no line produced by `splitlines` contains a line boundary, and the empty text has no lines |
| Text.SplitLinesFinalBreak | fetch_feeds.py:14 | a final terminator of any kind ends the last line without starting an empty one: `"a\n"` is the single line `"a"` |
| Text.SplitLinesSingle | fetch_feeds.py:14 | a non-empty string without line boundaries is exactly one line, so a last line needs no terminator |
| Text.SplitLinesCons | fetch_feeds.py:14 | a line followed by `\n` splits off as exactly one line, in front of the lines of the rest |
| Text.SplitLinesBreak | fetch_feeds.py:14 | the same for every other single-character boundary `splitlines` knows (`\x0b`, `\x0c`, `\x1c`-`\x1e`, `\x85`, `\u2028`, `\u2029`) |
| Text.SplitLinesCrLf | fetch_feeds.py:14 | `\r\n` is one boundary: the line before it splits off and the next line starts right after the `\n` |
| Text.SplitLinesLoneCr | fetch_feeds.py:14 | a `\r` not followed by `\n` is a boundary on its own |
| Text.LexLe | run.py:81 | Python's `<=` on `str`: code-point lexicographic order, where a proper prefix sorts first |
| Text.LexTotal | run.py:81 | any two timestamps are comparable under string order |
| Text.LexAntisymmetric | run.py:81 | two timestamps that are each no later than the other are equal |
| Text.LexTransitive | run.py:81 | string order on timestamps is transitive |
| Feeds.NonBlank | fetch_feeds.py:14 | the `if line.strip()` filter: every URL kept is non-empty and trimmed, lines without boundaries give URLs without boundaries, and there are no more URLs than lines |
| Feeds.LoadFeedUrls | fetch_feeds.py:9-14 | a missing file yields no URLs, and every URL loaded is non-empty, has no surrounding whitespace and contains no line break |
| Feeds.PaddedLineLoads | fetch_feeds.py:14 | a line of the file with whitespace around a URL loads as that URL, in order, ahead of the URLs of later lines |
| Feeds.BlankLineSkipped | fetch_feeds.py:14 | a whitespace-only line contributes nothing |
| Feeds.LastLineLoads | fetch_feeds.py:14 | a final line without a terminator, with whitespace around a URL, loads as that URL |
| Feeds.LastBlankLineSkipped | fetch_feeds.py:14 | a final whitespace-only line without a terminator loads nothing |
| Feeds.LoadFeedUrlsRoundTrip | fetch_feeds.py:9-14 | writing a URL list one per line and loading it gives back the same list, in the same order |
| Feeds.FirstNonEmpty | fetch_feeds.py:63 | the chain yields nothing exactly when every candidate is absent or empty; otherwise it yields the first non-empty candidate |
| Feeds.ResolveId | fetch_feeds.py:63-65 | an entry has no id exactly when id, link and title are all absent or empty; a resolved id is non-empty, is one of the three fields, and is the entry's own id whenever that is non-empty |
| Feeds.ResolveIdChain | fetch_feeds.py:63 | the id is the entry's id if non-empty, else its link if non-empty, else its title if non-empty, else none |
| Feeds.SourceName | fetch_feeds.py:60 | the source is the feed's title whenever the title key is present (even if empty), and otherwise the URL |
| Feeds.DescriptionOf | fetch_feeds.py:71 | the description is the summary when present (even if empty), else the description field, else empty |
| Feeds.Raises | fetch_feeds.py:62-75 | an entry raises while its item is built exactly when it has an id and its timestamp cannot be extracted (the model's absent `timestamp`); the `except` at fetch_feeds.py:75 then ends the whole feed |
| Feeds.Normalize | fetch_feeds.py:62-74 | an entry is skipped exactly when id, link and title are all absent or empty; it aborts the feed exactly when its processing raises; an emitted item has a non-empty id, the feed's source, and title, link and description defaulting to empty |
| Feeds.EntryItems | fetch_feeds.py:62-74 | a feed yields at most one item per entry; each carries the feed's source and a non-empty id, and is the normalisation of some entry |
| Feeds.EntryItemsOne | fetch_feeds.py:62-74 | a single entry contributes exactly its item when it has an id and does not raise, and nothing otherwise |
| Feeds.EmittedEntryItem | fetch_feeds.py:62-74 | an entry that yields an item, with no raising entry before it, has that item among its feed's items |
| Feeds.EntryItemsAppend | fetch_feeds.py:58-77 | entries are processed in order; an entry that raises discards the rest of that feed but keeps the items already appended |
| Feeds.FeedItems | fetch_feeds.py:58-62 | a feed whose fetch raises yields no items; otherwise every item carries that feed's source name |
| Feeds.FetchFeeds | fetch_feeds.py:43-78 | every fetched item has a non-empty id |
| Feeds.FetchFeedsAround | fetch_feeds.py:57-78 | the items of the feed at any position sit between the items of the feeds listed before it and after it |
| Feeds.FeedItemsFetched | fetch_feeds.py:57-78 | every item of any listed feed is among the fetched items |
| Feeds.EmittedEntryFetched | fetch_feeds.py:57-74 | an entry of a listed feed that parsed, with no raising entry before it in that feed, reaches the result as the item it yields |
| Feeds.FetchedSources | fetch_feeds.py:57-74 | every fetched item's source is the title or URL of one of the listed feeds that parsed |
| Feeds.FetchFeedsAppend | fetch_feeds.py:57-78 | items come grouped by feed, in the order the feeds are listed |
| Feeds.RaisedFeedSkipped | fetch_feeds.py:58-76 | a feed whose fetch raises is absent from the result, and the feeds before and after it are unaffected |
| Summarize.TagAt | summarize.py:34 | `<[^>]+>` matches at a position: a `<`, then a character other than `>`, then a `>` somewhere after it |
| Summarize.StripTags | summarize.py:34 | removing tags only deletes characters: the result is a subsequence of the input |
| Summarize.StripTagsNoTagHere | summarize.py:34 | where no match starts, the first character is kept and scanning moves on by one |
| Summarize.StripTagsKeepsPlain | summarize.py:34 | text before the first `<` is kept unchanged in front of whatever the rest becomes |
| Summarize.StripTagsDropsTag | summarize.py:34 | a complete tag, `<` then at least one character other than `>` then `>`, is deleted and scanning resumes right after it |
| Summarize.StripTagsKeepsEmptyBrackets | summarize.py:34 | `<>` is not a tag, because the pattern needs a character between the brackets: both brackets stay and the rest is stripped after them |
| Summarize.StripTagsKeepsOutside | summarize.py:34 | the text around a tag survives: `"a<b>c"` becomes `"ac"` |
| Summarize.StripTagsShorter | summarize.py:34 | removing tags never lengthens the text |
| Summarize.StripTagsIdentity | summarize.py:34 | text with no `<...>` tag is unchanged |
| Summarize.StripTagsNoAngle | summarize.py:34 | text without `<` is unchanged |
| Summarize.StripTagsLeavesNoTag | summarize.py:34 | after removal no `<`, followed by non-`>` characters and then `>`, remains |
| Summarize.StripTagsIdempotent | summarize.py:34 | removing tags twice is the same as removing them once |
| Summarize.RawContent | summarize.py:30 | the content is the slice of `"{title}. {description}"` left after cutting only whitespace from both ends, and it neither begins nor ends with whitespace |
| Summarize.Content | summarize.py:30-34 | the content sent to the model is a subsequence of the stripped text and contains no tag |
| Summarize.TrimBeforeStrip | summarize.py:30-34 | whitespace is trimmed before tags are removed, so `"<p> Hi"` with an empty description gives `" Hi."` with its leading space |
| Summarize.Prompt | summarize.py:39-46 | the prompt is the fixed instruction followed by exactly the prepared content |
| Summarize.PromptWithoutMarkup | summarize.py:30-46 | for text without `<`, the prompt is the instruction followed by the stripped `"{title}. {description}"` |
| Summarize.Truncate | summarize.py:50 | the result is a prefix of the text, of length equal to the smaller of the text's length and the limit |
| Summarize.Shorten | summarize.py:50 | the summary is a prefix of the stripped answer: the whole of it when that has at most 140 characters, otherwise exactly its first 140; it never starts with whitespace |
| Summarize.Summarize | summarize.py:15-50 | there is a summary exactly when the model call succeeds; it has at most 140 characters and is the model's answer shortened as Summarize.Shorten states |
| Store.Ids | run.py:37 | `known_ids`: the set of the ids of the stored posts |
| Store.Insert | run.py:81 | inserting into a newest-first list keeps it newest-first and adds exactly that post |
| Store.SortNewestFirst | run.py:81 | the sort result is newest-first and a permutation of its input |
| Store.SortStable | run.py:81 | the sort is stable: posts with equal timestamps keep their input order |
| Store.SortKeepsSorted | run.py:81 | a list that is already newest-first is left unchanged |
| Store.SortKeepsDistinct | run.py:81 | sorting keeps post ids distinct |
| Store.Merge | run.py:80-81 | the merged store is newest-first and holds exactly the new posts plus the old ones |
| Store.MergeStable | run.py:80-81 | among posts with equal timestamps, new posts come before old ones, each group in its own order |
| Run.FilterNew | run.py:47 | new items keep their fetch order, and an item is kept exactly when its id is not already stored |
| Run.Cap | run.py:18 | the batch is a prefix of the new items, of length equal to the smaller of their count and 110 |
| Run.FilterNewOne | run.py:47 | a single item is kept exactly when its id is not stored |
| Run.FilterNewAppend | run.py:47 | filtering works item by item over a concatenation, so every occurrence of a new item is kept, duplicates included |
| Run.PostOf | run.py:68-74 | the post carries the item's id, link, source and timestamp, and the summary as its text |
| Run.BuildPosts | run.py:64-77 | the posts' origins are the batch items' origins with some deleted, in batch order; every item whose summary succeeds yields its post |
| Run.BuildPostsFrom | run.py:64-77 | each post built comes from one batch item and that item's summary |
| Run.BuildPostsOne | run.py:65-77 | one item yields its post exactly when its summary succeeds, and nothing otherwise |
| Run.BuildPostsAppend | run.py:65-77 | the loop works item by item over a concatenation, so each successful occurrence yields its own post, in order |
| Run.NewPosts | run.py:47-77 | the posts one run builds: the new items, capped, then each summarised in order |
| Run.NewPostsFacts | run.py:47-77 | a run creates at most 110 posts, each with an id not yet stored and built from a fetched item and its summary |
| Run.MergeMembers | run.py:80 | the store after merging holds every old post and every new post, and nothing else |
| Run.StepWith | run.py:34-83 | the run stops with nothing new exactly when every fetched id is stored; fails on the key exactly when something is new and there is no key; otherwise saves a newest-first permutation of old plus new posts, growing by at most 110 |
| Run.HasApiKey | summarize.py:9-11 | `get_client` goes on only when the key is set and not empty |
| Run.Summariser | run.py:67 | the intended call `summarize(title, description, client)` for each item |
| Run.Step | run.py:60-81 | with the model as summariser, every added post has a fresh id and a text of at most 140 characters |
| Run.StoreAfter | run.py:50-82 | the store after a run: the saved list, or the old one when the run returns early (nothing new) or stops on a missing key |
| Run.StoreAfterMembers | run.py:50-82 | no stored post is lost by a run; every post afterwards was stored before or is one of the run's new posts; with a key, every new post is stored |
| Run.StepKeepsIdsDistinct | run.py:37-81 | if stored ids and fetched ids are each distinct, stored ids stay distinct after the run |
| Run.StepIdempotent | run.py:47-53 | when every new item fits in the cap and is summarised, running again on the same items adds nothing |
| Run.CappedItemsStayNew | run.py:56-58 | items beyond the cap are still new after the run and are eligible next time |
| Run.BatchOutcome | run.py:64-77 | a batch item whose summary succeeds is in the store afterwards; one whose summary fails is not, and its id stays new |
| Run.StepStoresEverySummary | run.py:64-74 | with the three-argument call, a new batch item whose model call answers is stored with its origin and its truncated summary |
| Run.CallSummarize | run.py:67 | a call with fewer positional arguments than the two `summarize` requires, or more than the three it declares (summarize.py:15), fails whatever the model would answer; a call with two or three succeeds exactly when the model answers |
| Run.AsCalled | run.py:67 | the summariser as the loop calls it, with four arguments, fails for every item |
| Run.StepAsWritten | run.py:67 | as written, a run that saves leaves the store's contents unchanged |
| Run.AsWrittenLosesEveryPost | run.py:67 | as written, with a key, a new item and a model that always answers, the run saves the old store unchanged, while the intended call adds posts |
| Run.NoPostsWhenAllFail | run.py:65-77 | when every summary call fails, no post is created |

## Left out

- `parse_timestamp` (fetch_feeds.py:17-40) is not modelled. Timestamps are opaque strings. The order of posts is Python string order on them. So the model does not show that offset-carrying timestamps, for which only "+00:00" is rewritten, can sort out of time order.
- An entry whose timestamp extraction raises is modelled by an `Entry` whose `timestamp` is absent. How that exception arises is not modelled.
- `feedparser.parse` and network access are a parameter of `FetchFeeds`. Feed and entry attributes are optional strings, and XML parsing is out of scope.
- The model call itself is an oracle. This includes `anthropic.Anthropic`, the model identifier and `max_tokens=100` (summarize.py:36-48). Any exception it raises, including a missing content block, becomes `None`.
- `get_client` is reduced to whether the `ANTHROPIC_API_KEY` value is present and non-empty. The `client is None` default in `summarize` (summarize.py:27-28) appears only in `Run.CallSummarize` with two arguments. There the key has already been accepted at run.py:61, so the client it builds is taken to work.
- A missing API key is modelled as the `MissingApiKey` result. The exception that ends the process is not modelled.
- `load_posts` and `save_posts` (JSON on disk) are not modelled. The store is a sequence of `Post` values; a missing file is the empty sequence.
- The file read in `load_feed_urls` is an `Option<string>` of its decoded text. Character decoding is not modelled.
- `Path.read_text()` reads in text mode and turns `\r\n` and a lone `\r` into `\n`. The model applies `splitlines` to the text before that translation. The lines come out the same either way, because `Text.SplitLinesCrLf` and `Text.SplitLinesLoneCr` treat those two boundaries exactly like `\n`.
- Printing and `generate_feed` (HTML rendering, generate.py) are not modelled.
- `item.get("source_context", "")` in run.py:67 always yields the empty string, because fetch_feeds.py never sets that key. So `Feeds.Item` has no such field.
- The sort: Python's `list.sort` is Timsort. The model is a stable insertion sort. The two agree on the result, because a stable sort by key is unique, but not on cost.

## Findings

| source | as written | input that shows it | evidently intended | confidence | as-written member | corrected member |
|---|---|---|---|---|---|---|
| run.py:67 | `summarize` is called with four positional arguments (title, description, source context, client), but summarize.py:15 declares three parameters, so every call raises `TypeError`, which run.py:76 catches and logs | an empty or sorted store, one fetched item with a new id, an API key set, and a model that answers every prompt: the run saves the old store unchanged and the item stays new | `summarize(item["title"], item["description"], client)`, so each new item whose model call succeeds becomes a post (proved in Run.StepStoresEverySummary) | high, not executed | Run.AsWrittenLosesEveryPost | Run.Step |

=== FILE: feeds.dfy ===
/** Feed loading and entry normalisation (fetch_feeds.py). The feed parser is an oracle
    from URL to `Fetch`; timestamps are opaque strings produced outside this model. */
module Feeds {
  import opened Options
  import opened Seqs
  import Text

  // ---------------------------------------------------------------- feed list

  /** A line that `load_feed_urls` returns unchanged: non-blank, trimmed, one line. */
  predicate IsFeedLine(u: string) {
    u != [] && Text.Trimmed(u) && Text.NoLineBreak(u)
  }

  /** The trimmed non-blank lines, in order. */
  function NonBlank(lines: seq<string>): (urls: seq<string>)
    ensures forall k :: 0 <= k < |urls| ==> urls[k] != [] && Text.Trimmed(urls[k])
    ensures (forall k :: 0 <= k < |lines| ==> Text.NoLineBreak(lines[k])) ==>
              forall k :: 0 <= k < |urls| ==> Text.NoLineBreak(urls[k])
    ensures |urls| <= |lines|
  {
    if lines == [] then []
    else
      var u := Text.Strip(lines[0]);
      Text.StripKeepsLineBreaks(lines[0]);
      if u == [] then NonBlank(lines[1..]) else [u] + NonBlank(lines[1..])
  }

  /** `load_feed_urls`: `file` is the text of the list file, or `None` when it does not exist. */
  function LoadFeedUrls(file: Option<string>): (urls: seq<string>)
    ensures file.None? ==> urls == []
    ensures forall k :: 0 <= k < |urls| ==> IsFeedLine(urls[k])
  {
    match file
    case None => []
    case Some(text) => NonBlank(Text.SplitLines(text))
  }

  /** A list file written one URL per line, each line ended by `\n`. */
  function FeedsText(urls: seq<string>): string {
    if urls == [] then "" else urls[0] + "\n" + FeedsText(urls[1..])
  }

  /** A line with whitespace on either side yields the URL in between. */
  lemma PaddedLineLoads(p: string, u: string, q: string, rest: string)
    requires IsFeedLine(u)
    requires Text.AllSpace(p) && Text.NoLineBreak(p) && Text.AllSpace(q) && Text.NoLineBreak(q)
    ensures LoadFeedUrls(Some(p + u + q + "\n" + rest)) == [u] + LoadFeedUrls(Some(rest))
  {
    assert Text.NoLineBreak(p + u + q);
    Text.SplitLinesCons(p + u + q, rest);
    Text.StripPadded(p, u, q);
  }

  /** A blank or whitespace-only line contributes nothing. */
  lemma BlankLineSkipped(b: string, rest: string)
    requires Text.AllSpace(b) && Text.NoLineBreak(b)
    ensures LoadFeedUrls(Some(b + "\n" + rest)) == LoadFeedUrls(Some(rest))
  {
    Text.SplitLinesCons(b, rest);
    Text.StripPadded(b, [], []);
    assert b + [] + [] == b;
  }

  /** A final line without a terminator still loads: a padded URL as the URL. */
  lemma LastLineLoads(p: string, u: string, q: string)
    requires IsFeedLine(u)
    requires Text.AllSpace(p) && Text.NoLineBreak(p) && Text.AllSpace(q) && Text.NoLineBreak(q)
    ensures LoadFeedUrls(Some(p + u + q)) == [u]
  {
    var line := p + u + q;
    assert Text.NoLineBreak(line) by {
      forall i | 0 <= i < |line| ensures !Text.IsLineBreak(line[i]) {
        if i < |p| { assert line[i] == p[i]; }
        else if i < |p| + |u| { assert line[i] == u[i - |p|]; }
        else { assert line[i] == q[i - |p| - |u|]; }
      }
    }
    Text.SplitLinesSingle(line);
    Text.StripPadded(p, u, q);
    assert NonBlank([line]) == [u] by {
      assert [line][1..] == [];
    }
  }

  /** A final whitespace-only line without a terminator contributes nothing either. */
  lemma LastBlankLineSkipped(b: string)
    requires Text.AllSpace(b) && Text.NoLineBreak(b)
    ensures LoadFeedUrls(Some(b)) == []
  {
    if b != [] {
      Text.SplitLinesSingle(b);
      Text.StripPadded(b, [], []);
      assert b + [] + [] == b;
      assert [b][1..] == [];
    }
  }

  /** The first URL of a written list splits off as the first line. */
  lemma SplitFeedsTextCons(urls: seq<string>, rest: string)
    requires urls != [] && Text.NoLineBreak(urls[0])
    ensures Text.SplitLines(FeedsText(urls) + rest) == [urls[0]] + Text.SplitLines(FeedsText(urls[1..]) + rest)
  {
    var t := FeedsText(urls[1..]) + rest;
    assert FeedsText(urls) + rest == urls[0] + "\n" + t;
    Text.SplitLinesCons(urls[0], t);
  }

  lemma {:induction false} SplitFeedsText(urls: seq<string>, rest: string)
    requires forall k :: 0 <= k < |urls| ==> Text.NoLineBreak(urls[k])
    ensures Text.SplitLines(FeedsText(urls) + rest) == urls + Text.SplitLines(rest)
  {
    if urls != [] {
      var tail := Text.SplitLines(rest);
      SplitFeedsTextCons(urls, rest);
      assert forall k :: 0 <= k < |urls[1..]| ==> Text.NoLineBreak(urls[1..][k]) by {
        forall k | 0 <= k < |urls[1..]| ensures Text.NoLineBreak(urls[1..][k]) {
          assert urls[1..][k] == urls[k + 1];
        }
      }
      SplitFeedsText(urls[1..], rest);
      ConsAppend(urls, tail);
    } else {
      assert FeedsText(urls) + rest == rest;
    }
  }

  lemma {:induction false} NonBlankAppend(a: seq<string>, b: seq<string>)
    ensures NonBlank(a + b) == NonBlank(a) + NonBlank(b)
  {
    if a == [] {
      assert a + b == b;
    } else {
      assert (a + b)[0] == a[0] && (a + b)[1..] == a[1..] + b;
      NonBlankAppend(a[1..], b);
    }
  }

  lemma {:induction false} NonBlankKeepsFeedLines(urls: seq<string>)
    requires forall k :: 0 <= k < |urls| ==> IsFeedLine(urls[k])
    ensures NonBlank(urls) == urls
  {
    if urls != [] {
      Text.StripPadded([], urls[0], []);
      assert [] + urls[0] + [] == urls[0];
      NonBlankKeepsFeedLines(urls[1..]);
      HeadTail(urls);
    }
  }

  /** Writing feed lines out and loading them back gives the same list, in order. */
  lemma LoadFeedUrlsRoundTrip(urls: seq<string>, rest: string)
    requires forall k :: 0 <= k < |urls| ==> IsFeedLine(urls[k])
    ensures LoadFeedUrls(Some(FeedsText(urls) + rest)) == urls + LoadFeedUrls(Some(rest))
  {
    SplitFeedsText(urls, rest);
    NonBlankAppend(urls, Text.SplitLines(rest));
    NonBlankKeepsFeedLines(urls);
  }

  // ---------------------------------------------------------------- entries

  /** One parsed feed entry: every field may be absent. `timestamp` is the value the
      timestamp normaliser yields for it, or `None` if that step raises. */
  datatype Entry = Entry(
    id: Option<string>,
    link: Option<string>,
    title: Option<string>,
    summary: Option<string>,
    description: Option<string>,
    timestamp: Option<string>)

  /** The parser's answer for one URL: it raised, or it gave a feed title and entries. */
  datatype Fetch = Raised | Parsed(title: Option<string>, entries: seq<Entry>)

  /** A normalised feed item. */
  datatype Item = Item(
    id: string,
    source: string,
    title: string,
    description: string,
    url: string,
    timestamp: string)

  /** What the loop body does with one entry. */
  datatype Outcome = Skip | Emit(item: Item) | Abort

  /** Python falsiness of an optional string: absent or empty. */
  predicate Blank(o: Option<string>) {
    o.None? || o.value == []
  }

  /** `a or b or c`: the first candidate that is present and non-empty. */
  function FirstNonEmpty(candidates: seq<Option<string>>): (r: Option<string>)
    ensures r.None? <==> forall k :: 0 <= k < |candidates| ==> Blank(candidates[k])
    ensures r.Some? ==> r.value != [] && (exists k :: 0 <= k < |candidates| && candidates[k] == r
                                                    && forall m :: 0 <= m < k ==> Blank(candidates[m]))
  {
    if candidates == [] then None
    else if !Blank(candidates[0]) then candidates[0]
    else
      var r := FirstNonEmpty(candidates[1..]);
      assert forall k :: 1 <= k < |candidates| ==> candidates[k] == candidates[1..][k - 1];
      r
  }

  /** An entry's id: its `id`, else its `link`, else its `title`. */
  function ResolveId(e: Entry): (r: Option<string>)
    ensures r.None? <==> Blank(e.id) && Blank(e.link) && Blank(e.title)
    ensures r.Some? ==> r.value != [] && (r == e.id || r == e.link || r == e.title)
    ensures !Blank(e.id) ==> r == e.id
  {
    var candidates := [e.id, e.link, e.title];
    assert candidates[0] == e.id && candidates[1] == e.link && candidates[2] == e.title;
    FirstNonEmpty(candidates)
  }

  /** The fallback chain spelled out field by field agrees with the candidate list. */
  lemma ResolveIdChain(e: Entry)
    ensures ResolveId(e) ==
      if !Blank(e.id) then e.id
      else if !Blank(e.link) then e.link
      else if !Blank(e.title) then e.title
      else None
  {
    var cs := [e.id, e.link, e.title];
    assert cs[0] == e.id && cs[1] == e.link && cs[2] == e.title;
  }

  /** The item's source name: the feed's title key if present (even empty), else its URL. */
  function SourceName(url: string, title: Option<string>): (s: string)
    ensures title.Some? ==> s == title.value
    ensures title.None? ==> s == url
  {
    title.GetOr(url)
  }

  /** `entry.get("summary", entry.get("description", ""))`. */
  function DescriptionOf(e: Entry): (d: string)
    ensures e.summary.Some? ==> d == e.summary.value
    ensures e.summary.None? && e.description.Some? ==> d == e.description.value
    ensures e.summary.None? && e.description.None? ==> d == []
  {
    e.summary.GetOr(e.description.GetOr(""))
  }

  /** The entry raises while its item is being built. */
  predicate Raises(e: Entry) {
    ResolveId(e).Some? && e.timestamp.None?
  }

  /** The loop body for one entry of a feed named `source`. */
  function Normalize(source: string, e: Entry): (r: Outcome)
    ensures r.Skip? <==> forall f :: f in [e.id, e.link, e.title] ==> Blank(f)
    ensures r.Abort? <==> Raises(e)
    ensures r.Emit? ==> && r.item.id != []
                        && Some(r.item.id) == ResolveId(e)
                        && r.item.source == source
                        && Some(r.item.timestamp) == e.timestamp
                        && (e.title.Some? ==> r.item.title == e.title.value)
                        && (e.title.None? ==> r.item.title == [])
                        && (e.link.Some? ==> r.item.url == e.link.value)
                        && (e.link.None? ==> r.item.url == [])
                        && r.item.description == DescriptionOf(e)
  {
    match ResolveId(e)
    case None => Skip
    case Some(id) =>
      match e.timestamp
      case None => Abort
      case Some(ts) => Emit(Item(id, source, e.title.GetOr(""), DescriptionOf(e), e.link.GetOr(""), ts))
  }

  /** Some entry of `es` raises. */
  predicate AnyRaises(es: seq<Entry>) {
    exists k :: 0 <= k < |es| && Raises(es[k])
  }

  /** The items of one feed: entries in order, id-less ones skipped, and everything from
      the first raising entry on lost. */
  function EntryItems(source: string, es: seq<Entry>): (items: seq<Item>)
    ensures |items| <= |es|
    ensures forall k :: 0 <= k < |items| ==>
              items[k].id != [] && items[k].source == source
              && exists e :: e in es && Normalize(source, e) == Emit(items[k])
  {
    if es == [] then []
    else
      var rest := EntryItems(source, es[1..]);
      assert forall e :: e in es[1..] ==> e in es;
      match Normalize(source, es[0])
      case Skip => rest
      case Abort => []
      case Emit(it) => [it] + rest
  }

  /** Entry order is kept, and a raising entry cuts its feed short there. */
  lemma AnyRaisesCons(es: seq<Entry>)
    requires es != []
    ensures AnyRaises(es) <==> Raises(es[0]) || AnyRaises(es[1..])
  {
    forall k | 1 <= k < |es| ensures es[k] == es[1..][k - 1] { }
  }

  lemma {:induction false} EntryItemsAppend(source: string, es1: seq<Entry>, es2: seq<Entry>)
    ensures EntryItems(source, es1 + es2) ==
      if AnyRaises(es1) then EntryItems(source, es1)
      else EntryItems(source, es1) + EntryItems(source, es2)
  {
    if es1 == [] {
      assert es1 + es2 == es2;
    } else {
      AppendHeadTail(es1, es2);
      EntryItemsAppend(source, es1[1..], es2);
      var tail1 := EntryItems(source, es1[1..]);
      var tail2 := EntryItems(source, es2);
      AnyRaisesCons(es1);
      match Normalize(source, es1[0])
      case Skip =>
      case Abort =>
      case Emit(it) =>
        if !AnyRaises(es1) {
          AppendAssoc([it], tail1, tail2);
        }
    }
  }

  /** One entry contributes its item exactly when it normalises to one. */
  lemma EntryItemsOne(source: string, e: Entry)
    ensures EntryItems(source, [e]) ==
      if Normalize(source, e).Emit? then [Normalize(source, e).item] else []
  {
    assert [e][1..] == [];
  }

  /** The items one URL contributes. */
  function FeedItems(url: string, f: Fetch): (items: seq<Item>)
    ensures f.Raised? ==> items == []
    ensures f.Parsed? ==> forall k :: 0 <= k < |items| ==> items[k].source == SourceName(url, f.title)
  {
    match f
    case Raised => []
    case Parsed(title, entries) => EntryItems(SourceName(url, title), entries)
  }

  /** `fetch_feeds`: the items of every URL, feed after feed. */
  function FetchFeeds(urls: seq<string>, fetch: string -> Fetch): (items: seq<Item>)
    ensures forall k :: 0 <= k < |items| ==> items[k].id != []
  {
    if urls == [] then []
    else FeedItems(urls[0], fetch(urls[0])) + FetchFeeds(urls[1..], fetch)
  }

  /** Every item is named after a feed that parsed: its title, or its URL. */
  lemma {:induction false} FetchedSources(urls: seq<string>, fetch: string -> Fetch)
    ensures forall k :: 0 <= k < |FetchFeeds(urls, fetch)| ==>
              exists n :: 0 <= n < |urls| && fetch(urls[n]).Parsed?
                          && FetchFeeds(urls, fetch)[k].source == SourceName(urls[n], fetch(urls[n]).title)
  {
    if urls != [] {
      var head := FeedItems(urls[0], fetch(urls[0]));
      var rest := FetchFeeds(urls[1..], fetch);
      var r := FetchFeeds(urls, fetch);
      assert r == head + rest;
      FetchedSources(urls[1..], fetch);
      forall k | 0 <= k < |r|
        ensures exists n :: 0 <= n < |urls| && fetch(urls[n]).Parsed?
                            && r[k].source == SourceName(urls[n], fetch(urls[n]).title)
      {
        if k < |head| {
          assert r[k] == head[k];
          assert fetch(urls[0]).Parsed? && r[k].source == SourceName(urls[0], fetch(urls[0]).title);
        } else {
          assert r[k] == rest[k - |head|];
          var n :| 0 <= n < |urls[1..]| && fetch(urls[1..][n]).Parsed?
                   && rest[k - |head|].source == SourceName(urls[1..][n], fetch(urls[1..][n]).title);
          assert urls[1..][n] == urls[n + 1];
          assert fetch(urls[n + 1]).Parsed? && r[k].source == SourceName(urls[n + 1], fetch(urls[n + 1]).title);
        }
      }
    } else {
      assert FetchFeeds(urls, fetch) == [];
    }
  }

  /** Items come out grouped by feed, in URL order. */
  lemma {:induction false} FetchFeedsAppend(us1: seq<string>, us2: seq<string>, fetch: string -> Fetch)
    ensures FetchFeeds(us1 + us2, fetch) == FetchFeeds(us1, fetch) + FetchFeeds(us2, fetch)
  {
    if us1 == [] {
      assert us1 + us2 == us2;
    } else {
      assert (us1 + us2)[0] == us1[0];
      assert (us1 + us2)[1..] == us1[1..] + us2;
      FetchFeedsAppend(us1[1..], us2, fetch);
    }
  }

  /** A feed whose fetch raises is skipped and the feeds after it are still read. */
  lemma RaisedFeedSkipped(us1: seq<string>, u: string, us2: seq<string>, fetch: string -> Fetch)
    requires fetch(u).Raised?
    ensures FetchFeeds(us1 + [u] + us2, fetch) == FetchFeeds(us1, fetch) + FetchFeeds(us2, fetch)
  {
    FetchFeedsAppend(us1 + [u], us2, fetch);
    FetchFeedsAppend(us1, [u], fetch);
    assert [u][1..] == [];
    assert FetchFeeds([u], fetch) == [];
    assert FetchFeeds(us1, fetch) + [] == FetchFeeds(us1, fetch);
  }

  /** An entry with no raising entry before it reaches its feed's items. */
  lemma EmittedEntryItem(source: string, es1: seq<Entry>, e: Entry, es2: seq<Entry>, it: Item)
    requires !AnyRaises(es1) && Normalize(source, e) == Emit(it)
    ensures it in EntryItems(source, es1 + [e] + es2)
  {
    var tail := [e] + es2;
    AppendAssoc(es1, [e], es2);
    EntryItemsAppend(source, es1, tail);
    assert tail[0] == e && tail[1..] == es2;
    assert it in EntryItems(source, tail);
  }

  /** Every item of a listed feed is among the fetched items. */
  lemma FeedItemsFetched(urls: seq<string>, fetch: string -> Fetch, n: nat, it: Item)
    requires n < |urls| && it in FeedItems(urls[n], fetch(urls[n]))
    ensures it in FetchFeeds(urls, fetch)
  {
    FetchFeedsAround(urls, fetch, n);
    InMiddle(it, FetchFeeds(urls[..n], fetch), FeedItems(urls[n], fetch(urls[n])), FetchFeeds(urls[n + 1..], fetch));
  }

  /** The items of the feed at position `n` sit between those of the feeds before and after. */
  lemma FetchFeedsAround(urls: seq<string>, fetch: string -> Fetch, n: nat)
    requires n < |urls|
    ensures FetchFeeds(urls, fetch)
            == FetchFeeds(urls[..n], fetch) + FeedItems(urls[n], fetch(urls[n])) + FetchFeeds(urls[n + 1..], fetch)
  {
    SplitAt(urls, n);
    FetchFeedsAppend(urls[..n], urls[n..], fetch);
    AppendAssoc(FetchFeeds(urls[..n], fetch), FeedItems(urls[n], fetch(urls[n])), FetchFeeds(urls[n + 1..], fetch));
  }

  /** An entry of a listed feed that parsed, with no raising entry before it, reaches the
      result as the item it normalises to. */
  lemma EmittedEntryFetched(urls: seq<string>, fetch: string -> Fetch, n: nat, t: Option<string>,
                            es1: seq<Entry>, e: Entry, es2: seq<Entry>, it: Item)
    requires n < |urls| && fetch(urls[n]) == Parsed(t, es1 + [e] + es2)
    requires !AnyRaises(es1) && Normalize(SourceName(urls[n], t), e) == Emit(it)
    ensures it in FetchFeeds(urls, fetch)
  {
    EmittedEntryItem(SourceName(urls[n], t), es1, e, es2, it);
    FeedItemsFetched(urls, fetch, n, it);
  }
}

=== FILE: options.dfy ===
/** Optional values: a dictionary lookup that may find no key, a call that may raise. */
module Options {

  datatype Option<+T> = None | Some(value: T) {

    /** The wrapped value, or `default` when there is none (Python's `d.get(k, default)`). */
    function GetOr(default: T): T {
      match this
      case Some(v) => v
      case None => default
    }
  }
}

=== FILE: run.dfy ===
/** One run of the pipeline (run.py `main`) as a pure step from the stored posts, the fetched
    items and the summariser to what the run saves. Loading, saving and rendering are left out. */
module Run {
  import opened Options
  import opened Seqs
  import Feeds
  import Summarize
  import opened Store

  /** Per-run cap on newly summarised items (cost control). */
  const MaxNewPostsPerRun: nat := 110

  function ItemOrigin(it: Feeds.Item): Origin {
    Origin(it.id, it.url, it.source, it.timestamp)
  }

  function ItemId(it: Feeds.Item): string {
    it.id
  }

  function OriginId(o: Origin): string {
    o.id
  }

  /** The fetched items whose id is not already stored, in fetch order. */
  function FilterNew(items: seq<Feeds.Item>, known: set<string>): (newItems: seq<Feeds.Item>)
    ensures IsSubseq(newItems, items)
    ensures forall it :: it in newItems <==> it in items && it.id !in known
  {
    if items == [] then []
    else
      var rest := FilterNew(items[1..], known);
      assert forall it :: it in items <==> it == items[0] || it in items[1..] by {
        assert items == [items[0]] + items[1..];
      }
      if items[0].id in known then
        rest
      else
        assert ([items[0]] + rest)[1..] == rest;
        [items[0]] + rest
  }

  /** A single item is kept exactly when its id is not stored. */
  lemma FilterNewOne(it: Feeds.Item, known: set<string>)
    ensures FilterNew([it], known) == if it.id in known then [] else [it]
  {
    assert [it][1..] == [];
  }

  /** Filtering works item by item: every occurrence of a new item is kept, duplicates included. */
  lemma {:induction false} FilterNewAppend(a: seq<Feeds.Item>, b: seq<Feeds.Item>, known: set<string>)
    ensures FilterNew(a + b, known) == FilterNew(a, known) + FilterNew(b, known)
  {
    if a == [] {
      assert a + b == b;
    } else {
      AppendHeadTail(a, b);
      FilterNewAppend(a[1..], b, known);
      if a[0].id !in known {
        AppendAssoc([a[0]], FilterNew(a[1..], known), FilterNew(b, known));
      }
    }
  }

  lemma {:induction false} FilterNewAllKnown(items: seq<Feeds.Item>, known: set<string>)
    requires forall it :: it in items ==> it.id in known
    ensures FilterNew(items, known) == []
  {
    if items != [] {
      assert items[0] in items;
      assert forall it :: it in items[1..] ==> it in items;
      FilterNewAllKnown(items[1..], known);
    }
  }

  /** `new_items[:MAX_NEW_POSTS_PER_RUN]` when there are more than the cap. */
  function Cap(newItems: seq<Feeds.Item>): (batch: seq<Feeds.Item>)
    ensures batch <= newItems
    ensures |batch| == if |newItems| <= MaxNewPostsPerRun then |newItems| else MaxNewPostsPerRun
  {
    if |newItems| > MaxNewPostsPerRun then newItems[..MaxNewPostsPerRun] else newItems
  }

  /** The post built from an item and its summary text. */
  function PostOf(it: Feeds.Item, text: string): (p: Post)
    ensures OriginOf(p) == ItemOrigin(it) && p.text == text
  {
    Post(it.id, text, it.url, it.source, it.timestamp)
  }

  /** The summarising loop: one post per item whose summary succeeds, in batch order. */
  function BuildPosts(batch: seq<Feeds.Item>, summarise: Feeds.Item -> Option<string>): (ps: seq<Post>)
    ensures IsSubseq(Map(OriginOf, ps), Map(ItemOrigin, batch))
    ensures forall it :: it in batch && summarise(it).Some? ==> PostOf(it, summarise(it).value) in ps
  {
    if batch == [] then []
    else
      var rest := BuildPosts(batch[1..], summarise);
      assert Map(ItemOrigin, batch)[1..] == Map(ItemOrigin, batch[1..]);
      assert forall it :: it in batch ==> it == batch[0] || it in batch[1..] by {
        assert batch == [batch[0]] + batch[1..];
      }
      match summarise(batch[0])
      case None => rest
      case Some(text) =>
        var ps := [PostOf(batch[0], text)] + rest;
        assert ps[1..] == rest;
        assert Map(OriginOf, ps)[1..] == Map(OriginOf, rest);
        ps
  }

  /** Every post the loop builds comes from one item of the batch and that item's summary. */
  lemma {:induction false} BuildPostsFrom(batch: seq<Feeds.Item>, summarise: Feeds.Item -> Option<string>)
    ensures forall p :: p in BuildPosts(batch, summarise) ==>
              exists it :: it in batch && summarise(it) == Some(p.text) && OriginOf(p) == ItemOrigin(it)
  {
    if batch != [] {
      BuildPostsFrom(batch[1..], summarise);
      var rest := BuildPosts(batch[1..], summarise);
      forall p | p in BuildPosts(batch, summarise)
        ensures exists it :: it in batch && summarise(it) == Some(p.text) && OriginOf(p) == ItemOrigin(it)
      {
        if p in rest {
          var it :| it in batch[1..] && summarise(it) == Some(p.text) && OriginOf(p) == ItemOrigin(it);
          assert it in batch;
        } else {
          assert p == PostOf(batch[0], summarise(batch[0]).value);
          assert batch[0] in batch;
        }
      }
    }
  }

  /** One item yields its post exactly when its summary succeeds. */
  lemma BuildPostsOne(it: Feeds.Item, summarise: Feeds.Item -> Option<string>)
    ensures BuildPosts([it], summarise) ==
      if summarise(it).Some? then [PostOf(it, summarise(it).value)] else []
  {
    assert [it][1..] == [];
  }

  /** The loop works item by item: every successful occurrence yields its own post, in order. */
  lemma {:induction false} BuildPostsAppend(a: seq<Feeds.Item>, b: seq<Feeds.Item>,
                                           summarise: Feeds.Item -> Option<string>)
    ensures BuildPosts(a + b, summarise) == BuildPosts(a, summarise) + BuildPosts(b, summarise)
  {
    if a == [] {
      assert a + b == b;
    } else {
      AppendHeadTail(a, b);
      BuildPostsAppend(a[1..], b, summarise);
      if summarise(a[0]).Some? {
        AppendAssoc([PostOf(a[0], summarise(a[0]).value)], BuildPosts(a[1..], summarise),
                    BuildPosts(b, summarise));
      }
    }
  }

  /** How a run ends: nothing new (no save, the page is rendered from the stored posts), a
      fatal missing API key, or the merged list that is saved and rendered. */
  datatype StepResult = NoNewPosts | MissingApiKey | Saved(posts: seq<Post>)

  /** `get_client` accepts the environment's key only when it is set and non-empty. */
  predicate HasApiKey(apiKey: Option<string>) {
    apiKey.Some? && apiKey.value != []
  }

  /** The posts a run builds before merging. */
  function NewPosts(posts: seq<Post>, items: seq<Feeds.Item>, summarise: Feeds.Item -> Option<string>): seq<Post> {
    BuildPosts(Cap(FilterNew(items, Ids(posts))), summarise)
  }

  /** What the posts built in one run are: at most the cap, none with a stored id, each
      made from a fetched item and its summary. */
  lemma NewPostsFacts(posts: seq<Post>, items: seq<Feeds.Item>, summarise: Feeds.Item -> Option<string>)
    ensures |NewPosts(posts, items, summarise)| <= MaxNewPostsPerRun
    ensures forall p :: p in NewPosts(posts, items, summarise) ==>
              p.id !in Ids(posts)
              && exists it :: it in items && summarise(it) == Some(p.text) && OriginOf(p) == ItemOrigin(it)
  {
    var newItems := FilterNew(items, Ids(posts));
    var batch := Cap(newItems);
    var newPosts := BuildPosts(batch, summarise);
    SubseqLength(Map(OriginOf, newPosts), Map(ItemOrigin, batch));
    BuildPostsFrom(batch, summarise);
    forall p | p in newPosts
      ensures p.id !in Ids(posts)
      ensures exists it :: it in items && summarise(it) == Some(p.text) && OriginOf(p) == ItemOrigin(it)
    {
      var it :| it in batch && summarise(it) == Some(p.text) && OriginOf(p) == ItemOrigin(it);
      var k :| 0 <= k < |batch| && batch[k] == it;
      assert newItems[k] == it;
      assert it in newItems;
    }
  }

  /** The merged list keeps every stored post and adds only posts built in this run. */
  lemma MergeMembers(newPosts: seq<Post>, posts: seq<Post>)
    ensures forall p :: p in posts ==> p in Merge(newPosts, posts)
    ensures forall p :: p in newPosts ==> p in Merge(newPosts, posts)
    ensures forall p :: p in Merge(newPosts, posts) ==> p in newPosts || p in posts
  {
    var merged := Merge(newPosts, posts);
    forall p | p in newPosts ensures p in merged {
      assert p in multiset(merged);
    }
    forall p | p in posts ensures p in merged {
      assert p in multiset(merged);
    }
    forall p | p in merged ensures p in newPosts || p in posts {
      assert p in multiset(merged);
    }
  }

  /** The body of `main` for a given summariser. */
  function StepWith(posts: seq<Post>, items: seq<Feeds.Item>, apiKey: Option<string>,
                    summarise: Feeds.Item -> Option<string>): (r: StepResult)
    ensures r.NoNewPosts? <==> forall it :: it in items ==> it.id in Ids(posts)
    ensures r.MissingApiKey? <==> (exists it :: it in items && it.id !in Ids(posts)) && !HasApiKey(apiKey)
    ensures r.Saved? ==> NewestFirst(r.posts)
    ensures r.Saved? ==> multiset(r.posts) == multiset(NewPosts(posts, items, summarise)) + multiset(posts)
    ensures r.Saved? ==> |posts| <= |r.posts| <= |posts| + MaxNewPostsPerRun
    ensures r.Saved? ==> forall p :: p in r.posts ==>
              p in posts
              || (p.id !in Ids(posts)
                  && exists it :: it in items && summarise(it) == Some(p.text) && OriginOf(p) == ItemOrigin(it))
  {
    var newItems := FilterNew(items, Ids(posts));
    if newItems == [] then
      assert forall it :: it in items ==> it.id in Ids(posts) by {
        forall it | it in items ensures it.id in Ids(posts) {
          assert it !in newItems;
        }
      }
      NoNewPosts
    else if !HasApiKey(apiKey) then
      assert newItems[0] in items;
      MissingApiKey
    else
      var newPosts := NewPosts(posts, items, summarise);
      NewPostsFacts(posts, items, summarise);
      MergeMembers(newPosts, posts);
      assert newItems[0] in items;
      Saved(Merge(newPosts, posts))
  }

  /** The summariser `main` means to use: `summarize(title, description, client)`. */
  function Summariser(respond: string -> Option<string>): Feeds.Item -> Option<string> {
    (it: Feeds.Item) => Summarize.Summarize(it.title, it.description, respond)
  }

  /** One run with the model oracle `respond` behind the summariser. */
  function Step(posts: seq<Post>, items: seq<Feeds.Item>, apiKey: Option<string>,
                respond: string -> Option<string>): (r: StepResult)
    ensures r.Saved? ==> forall p :: p in r.posts && p !in posts ==>
              p.id !in Ids(posts) && |p.text| <= Summarize.MaxSummaryLength
  {
    StepWith(posts, items, apiKey, Summariser(respond))
  }

  /** The stored posts after a run: the saved list, or the old one when nothing was saved. */
  function StoreAfter(posts: seq<Post>, r: StepResult): seq<Post> {
    if r.Saved? then r.posts else posts
  }

  /** What the store holds after a run: every stored post, and with an API key every post
      built in the run; nothing else. */
  lemma StoreAfterMembers(posts: seq<Post>, items: seq<Feeds.Item>, apiKey: Option<string>,
                          summarise: Feeds.Item -> Option<string>)
    ensures var after := StoreAfter(posts, StepWith(posts, items, apiKey, summarise));
            && (forall p :: p in posts ==> p in after)
            && (forall p :: p in after ==> p in posts || p in NewPosts(posts, items, summarise))
            && (HasApiKey(apiKey) ==> forall p :: p in NewPosts(posts, items, summarise) ==> p in after)
  {
    var r := StepWith(posts, items, apiKey, summarise);
    if r.Saved? {
      var np := NewPosts(posts, items, summarise);
      assert r.posts == Merge(np, posts);
      MergeMembers(np, posts);
    } else if r.NoNewPosts? {
      FilterNewAllKnown(items, Ids(posts));
      assert Cap([]) == [];
    }
  }

  /** With stored ids distinct and fetched ids pairwise distinct, stored ids stay distinct. */
  lemma StepKeepsIdsDistinct(posts: seq<Post>, items: seq<Feeds.Item>, apiKey: Option<string>,
                             summarise: Feeds.Item -> Option<string>)
    requires DistinctBy(posts, PostId) && DistinctBy(items, ItemId)
    ensures DistinctBy(StoreAfter(posts, StepWith(posts, items, apiKey, summarise)), PostId)
  {
    var r := StepWith(posts, items, apiKey, summarise);
    if r.Saved? {
      var newItems := FilterNew(items, Ids(posts));
      var batch := Cap(newItems);
      var newPosts := BuildPosts(batch, summarise);
      SubseqDistinct(newItems, items, ItemId);
      PrefixSubseq(batch, newItems);
      SubseqDistinct(batch, newItems, ItemId);
      assert DistinctBy(Map(ItemOrigin, batch), OriginId);
      SubseqDistinct(Map(OriginOf, newPosts), Map(ItemOrigin, batch), OriginId);
      assert DistinctBy(newPosts, PostId) by {
        var os := Map(OriginOf, newPosts);
        forall i, j | 0 <= i < j < |newPosts| ensures PostId(newPosts[i]) != PostId(newPosts[j]) {
          assert OriginId(os[i]) != OriginId(os[j]);
        }
      }
      var all := newPosts + posts;
      NewPostsFacts(posts, items, summarise);
      DistinctAppend(newPosts, posts);
      SortKeepsDistinct(all);
    }
  }

  /** If every new item of the batch got its post and the cap cut nothing off, every fetched
      id is stored. */
  lemma AllIdsStored(posts: seq<Post>, items: seq<Feeds.Item>, summarise: Feeds.Item -> Option<string>,
                     after: seq<Post>)
    requires |FilterNew(items, Ids(posts))| <= MaxNewPostsPerRun
    requires forall it :: it in items && it.id !in Ids(posts) ==> summarise(it).Some?
    requires forall p :: p in posts ==> p in after
    requires forall p :: p in NewPosts(posts, items, summarise) ==> p in after
    ensures forall it :: it in items ==> it.id in Ids(after)
  {
    var newItems := FilterNew(items, Ids(posts));
    forall it | it in items ensures it.id in Ids(after) {
      if it.id in Ids(posts) {
        var p :| p in posts && p.id == it.id;
        assert p in after;
      } else {
        assert it in newItems;
        var p := PostOf(it, summarise(it).value);
        assert p in NewPosts(posts, items, summarise);
        assert p in after;
      }
    }
  }

  /** A second run over the same fetch finds nothing new, provided the first run's summaries
      all succeeded and the cap cut nothing off. */
  lemma StepIdempotent(posts: seq<Post>, items: seq<Feeds.Item>, apiKey: Option<string>,
                       summarise: Feeds.Item -> Option<string>)
    requires HasApiKey(apiKey)
    requires |FilterNew(items, Ids(posts))| <= MaxNewPostsPerRun
    requires forall it :: it in items && it.id !in Ids(posts) ==> summarise(it).Some?
    ensures var after := StoreAfter(posts, StepWith(posts, items, apiKey, summarise));
            StepWith(after, items, apiKey, summarise) == NoNewPosts
  {
    var after := StoreAfter(posts, StepWith(posts, items, apiKey, summarise));
    StoreAfterMembers(posts, items, apiKey, summarise);
    AllIdsStored(posts, items, summarise, after);
  }

  /** A post built in this run that shares its id with the `k`-th new item was built from
      that item: the item lies within the cap and its summary is the post's text. */
  lemma NewPostOrigin(posts: seq<Post>, items: seq<Feeds.Item>, summarise: Feeds.Item -> Option<string>,
                      p: Post, k: nat)
    requires DistinctBy(items, ItemId)
    requires p in NewPosts(posts, items, summarise)
    requires k < |FilterNew(items, Ids(posts))|
    ensures var newItems := FilterNew(items, Ids(posts));
            p.id == newItems[k].id ==> k < |Cap(newItems)| && summarise(newItems[k]) == Some(p.text)
  {
    var newItems := FilterNew(items, Ids(posts));
    var batch := Cap(newItems);
    if p.id == newItems[k].id {
      BuildPostsFrom(batch, summarise);
      var src :| src in batch && summarise(src) == Some(p.text) && OriginOf(p) == ItemOrigin(src);
      var m :| 0 <= m < |batch| && batch[m] == src;
      assert newItems[m] == src;
      SubseqDistinct(newItems, items, ItemId);
      assert ItemId(newItems[m]) == ItemId(newItems[k]);
      assert m == k;
    }
  }

  /** Items cut off by the cap are not stored and come back as new on the next run. */
  lemma CappedItemsStayNew(posts: seq<Post>, items: seq<Feeds.Item>, apiKey: Option<string>,
                           summarise: Feeds.Item -> Option<string>)
    requires DistinctBy(items, ItemId)
    ensures var newItems := FilterNew(items, Ids(posts));
            var after := StoreAfter(posts, StepWith(posts, items, apiKey, summarise));
            forall k :: MaxNewPostsPerRun <= k < |newItems| ==> newItems[k] in FilterNew(items, Ids(after))
  {
    var newItems := FilterNew(items, Ids(posts));
    var after := StoreAfter(posts, StepWith(posts, items, apiKey, summarise));
    StoreAfterMembers(posts, items, apiKey, summarise);
    forall k | MaxNewPostsPerRun <= k < |newItems| ensures newItems[k] in FilterNew(items, Ids(after)) {
      var it := newItems[k];
      assert it in newItems;
      forall p | p in after ensures p.id != it.id {
        if p in NewPosts(posts, items, summarise) {
          NewPostOrigin(posts, items, summarise, p, k);
        }
      }
    }
  }

  /** Within the batch, an item whose summary fails is left out (and so stays new), while
      every item whose summary succeeds is stored. */
  lemma BatchOutcome(posts: seq<Post>, items: seq<Feeds.Item>, apiKey: Option<string>,
                     summarise: Feeds.Item -> Option<string>, it: Feeds.Item)
    requires HasApiKey(apiKey) && DistinctBy(items, ItemId)
    requires it in Cap(FilterNew(items, Ids(posts)))
    ensures var after := StoreAfter(posts, StepWith(posts, items, apiKey, summarise));
            && (summarise(it).Some? ==> PostOf(it, summarise(it).value) in after)
            && (summarise(it).None? ==> it in FilterNew(items, Ids(after)))
  {
    var newItems := FilterNew(items, Ids(posts));
    var batch := Cap(newItems);
    var after := StoreAfter(posts, StepWith(posts, items, apiKey, summarise));
    StoreAfterMembers(posts, items, apiKey, summarise);
    var n :| 0 <= n < |batch| && batch[n] == it;
    assert newItems[n] == it;
    assert it in newItems;
    if summarise(it).None? {
      forall p | p in after ensures p.id != it.id {
        if p in NewPosts(posts, items, summarise) {
          NewPostOrigin(posts, items, summarise, p, n);
        }
      }
    }
  }

  // ---------------------------------------------------------------- the call as written

  /** Parameters `summarize` declares: title, description, client. */
  const SummarizeParameters: nat := 3

  /** Positional arguments the loop passes: title, description, source context, client. */
  const ArgumentsPassed: nat := 4

  /** Positional parameters `summarize` requires: title and description. */
  const RequiredParameters: nat := 2

  /** Calling `summarize` with `argc` positional arguments inside the loop: fewer than it
      requires or more than it declares raises TypeError, which the loop catches like any
      other failure. Without the client argument `summarize` builds its own; the key was
      already accepted before the loop, so that succeeds. */
  function CallSummarize(argc: nat, it: Feeds.Item, respond: string -> Option<string>): (r: Option<string>)
    ensures argc < RequiredParameters || argc > SummarizeParameters ==> r.None?
    ensures RequiredParameters <= argc <= SummarizeParameters ==>
              (r.Some? <==> respond(Summarize.Prompt(it.title, it.description)).Some?)
  {
    if argc < RequiredParameters || argc > SummarizeParameters then None
    else Summarize.Summarize(it.title, it.description, respond)
  }

  /** The summariser as the loop actually calls it. */
  function AsCalled(respond: string -> Option<string>): (summarise: Feeds.Item -> Option<string>)
    ensures forall it :: summarise(it).None?
  {
    (it: Feeds.Item) => CallSummarize(ArgumentsPassed, it, respond)
  }

  /** The body of `main` exactly as written, with the four-argument call. */
  function StepAsWritten(posts: seq<Post>, items: seq<Feeds.Item>, apiKey: Option<string>,
                         respond: string -> Option<string>): (r: StepResult)
    ensures r.Saved? ==> multiset(r.posts) == multiset(posts)
  {
    var r := StepWith(posts, items, apiKey, AsCalled(respond));
    assert BuildPosts(Cap(FilterNew(items, Ids(posts))), AsCalled(respond)) == [] by {
      NoPostsWhenAllFail(Cap(FilterNew(items, Ids(posts))), AsCalled(respond));
    }
    r
  }

  lemma {:induction false} NoPostsWhenAllFail(batch: seq<Feeds.Item>, summarise: Feeds.Item -> Option<string>)
    requires forall it :: it in batch ==> summarise(it).None?
    ensures BuildPosts(batch, summarise) == []
  {
    if batch != [] {
      assert batch[0] in batch;
      assert forall it :: it in batch[1..] ==> it in batch;
      NoPostsWhenAllFail(batch[1..], summarise);
    }
  }

  /** As written, a run never adds a post: whenever there is something new to summarise and
      the model would answer, the store comes out with exactly its old posts, while the
      three-argument call stores a post for every new item in the batch. */
  lemma AsWrittenLosesEveryPost(posts: seq<Post>, items: seq<Feeds.Item>, apiKey: Option<string>,
                                respond: string -> Option<string>)
    requires HasApiKey(apiKey) && NewestFirst(posts)
    requires exists it :: it in items && it.id !in Ids(posts)
    requires forall p :: respond(p).Some?
    ensures StepAsWritten(posts, items, apiKey, respond) == Saved(posts)
    ensures Step(posts, items, apiKey, respond).Saved?
    ensures |Step(posts, items, apiKey, respond).posts| > |posts|
  {
    var w := StepAsWritten(posts, items, apiKey, respond);
    SortKeepsSorted(posts);
    assert w.posts == Merge([], posts);
    assert [] + posts == posts;
    var newItems := FilterNew(items, Ids(posts));
    var it :| it in items && it.id !in Ids(posts);
    assert it in newItems;
    var batch := Cap(newItems);
    assert batch != [] && batch[0] in batch;
    var summarise := Summariser(respond);
    assert summarise(batch[0]).Some?;
    assert PostOf(batch[0], summarise(batch[0]).value) in NewPosts(posts, items, summarise);
  }

  /** With the three-argument call, a new item of the batch whose model call answers is
      stored as a post carrying its id, link, source, timestamp and the trimmed, truncated
      answer. */
  lemma StepStoresEverySummary(posts: seq<Post>, items: seq<Feeds.Item>, apiKey: Option<string>,
                               respond: string -> Option<string>, it: Feeds.Item)
    requires HasApiKey(apiKey)
    requires it in Cap(FilterNew(items, Ids(posts)))
    requires respond(Summarize.Prompt(it.title, it.description)).Some?
    ensures exists p :: p in StoreAfter(posts, Step(posts, items, apiKey, respond))
                        && OriginOf(p) == ItemOrigin(it)
                        && Some(p.text) == Summarize.Summarize(it.title, it.description, respond)
  {
    var summarise := Summariser(respond);
    StoreAfterMembers(posts, items, apiKey, summarise);
    var p := PostOf(it, summarise(it).value);
    assert p in NewPosts(posts, items, summarise);
    assert p in StoreAfter(posts, Step(posts, items, apiKey, respond));
  }
}

=== FILE: seqs.dfy ===
/** Order-preserving subsequences, element-wise maps and key distinctness over sequences. */
module Seqs {

  /** `a` is obtained from `b` by deleting elements, keeping the order of the rest. */
  predicate IsSubseq<T(==)>(a: seq<T>, b: seq<T>)
    decreases |b|
  {
    if a == [] then true
    else if b == [] then false
    else (a[0] == b[0] && IsSubseq(a[1..], b[1..])) || IsSubseq(a, b[1..])
  }

  /** `f` applied to every element, in order. */
  function Map<T, U>(f: T -> U, s: seq<T>): (r: seq<U>)
    ensures |r| == |s|
    ensures forall i :: 0 <= i < |s| ==> r[i] == f(s[i])
  {
    if s == [] then [] else [f(s[0])] + Map(f, s[1..])
  }

  /** No two positions of `s` carry the same key. */
  predicate DistinctBy<T, K(==)>(s: seq<T>, key: T -> K) {
    forall i, j :: 0 <= i < j < |s| ==> key(s[i]) != key(s[j])
  }

  lemma {:induction false} SubseqLength<T>(a: seq<T>, b: seq<T>)
    requires IsSubseq(a, b)
    ensures |a| <= |b|
    decreases |b|
  {
    if a != [] {
      if a[0] == b[0] && IsSubseq(a[1..], b[1..]) {
        SubseqLength(a[1..], b[1..]);
      } else {
        SubseqLength(a, b[1..]);
      }
    }
  }

  lemma {:induction false} SubseqMembers<T>(a: seq<T>, b: seq<T>)
    requires IsSubseq(a, b)
    ensures forall x :: x in a ==> x in b
    decreases |b|
  {
    if a != [] {
      if a[0] == b[0] && IsSubseq(a[1..], b[1..]) {
        SubseqMembers(a[1..], b[1..]);
        forall x | x in a ensures x in b {
          if x != a[0] {
            assert x in a[1..];
          }
        }
      } else {
        SubseqMembers(a, b[1..]);
      }
    }
  }

  lemma {:induction false} SubseqRefl<T>(a: seq<T>)
    ensures IsSubseq(a, a)
  {
    if a != [] {
      SubseqRefl(a[1..]);
    }
  }

  /** A prefix is a subsequence. */
  lemma {:induction false} PrefixSubseq<T>(a: seq<T>, b: seq<T>)
    requires a <= b
    ensures IsSubseq(a, b)
  {
    if a != [] {
      assert a[1..] <= b[1..];
      PrefixSubseq(a[1..], b[1..]);
    }
  }

  /** A subsequence of a suffix is a subsequence of the whole. */
  lemma {:induction false} SubseqOfSuffix<T>(a: seq<T>, b: seq<T>, n: nat)
    requires n <= |b| && IsSubseq(a, b[n..])
    ensures IsSubseq(a, b)
  {
    if n > 0 {
      assert b[1..][n - 1..] == b[n..];
      SubseqOfSuffix(a, b[1..], n - 1);
    }
  }

  lemma {:induction false} SubseqTrans<T>(a: seq<T>, b: seq<T>, c: seq<T>)
    requires IsSubseq(a, b) && IsSubseq(b, c)
    ensures IsSubseq(a, c)
    decreases |c|
  {
    if a != [] {
      SubseqLength(a, b);
      SubseqLength(b, c);
      if b[0] == c[0] && IsSubseq(b[1..], c[1..]) {
        if a[0] == b[0] && IsSubseq(a[1..], b[1..]) {
          SubseqTrans(a[1..], b[1..], c[1..]);
        } else {
          SubseqTrans(a, b[1..], c[1..]);
          assert IsSubseq(a, c[1..]);
        }
      } else {
        SubseqTrans(a, b, c[1..]);
      }
    }
  }

  /** Mapping both sides keeps the subsequence relation. */
  lemma {:induction false} SubseqMap<T, U>(f: T -> U, a: seq<T>, b: seq<T>)
    requires IsSubseq(a, b)
    ensures IsSubseq(Map(f, a), Map(f, b))
    decreases |b|
  {
    if a != [] {
      assert Map(f, b)[1..] == Map(f, b[1..]);
      if a[0] == b[0] && IsSubseq(a[1..], b[1..]) {
        SubseqMap(f, a[1..], b[1..]);
        assert Map(f, a)[1..] == Map(f, a[1..]);
      } else {
        SubseqMap(f, a, b[1..]);
      }
    }
  }

  /** Deleting elements cannot create a repeated key. */
  lemma {:induction false} SubseqDistinct<T, K>(a: seq<T>, b: seq<T>, key: T -> K)
    requires IsSubseq(a, b) && DistinctBy(b, key)
    ensures DistinctBy(a, key)
    decreases |b|
  {
    if a != [] {
      if a[0] == b[0] && IsSubseq(a[1..], b[1..]) {
        SubseqDistinct(a[1..], b[1..], key);
        SubseqMembers(a[1..], b[1..]);
        forall i, j | 0 <= i < j < |a| ensures key(a[i]) != key(a[j]) {
          if i == 0 {
            assert a[j] in a[1..];
            var k :| 0 <= k < |b[1..]| && b[1..][k] == a[j];
            assert b[k + 1] == a[j];
          } else {
            assert a[i] == a[1..][i - 1] && a[j] == a[1..][j - 1];
          }
        }
      } else {
        SubseqDistinct(a, b[1..], key);
      }
    }
  }

  /** Splitting off the head and appending commute. */
  lemma ConsAppend<T>(a: seq<T>, b: seq<T>)
    requires a != []
    ensures [a[0]] + (a[1..] + b) == a + b
  {
    assert a == [a[0]] + a[1..];
  }

  /** The head and tail of a concatenation whose left part is non-empty. */
  lemma AppendHeadTail<T>(a: seq<T>, b: seq<T>)
    requires a != []
    ensures (a + b)[0] == a[0] && (a + b)[1..] == a[1..] + b
  {
  }

  /** A sequence is its part before `n` followed by its part from `n`, whose head is `s[n]`. */
  lemma SplitAt<T>(s: seq<T>, n: nat)
    requires n < |s|
    ensures s[..n] + s[n..] == s
    ensures s[n..][0] == s[n] && s[n..][1..] == s[n + 1..]
  {
  }

  lemma AppendAssoc<T>(a: seq<T>, b: seq<T>, c: seq<T>)
    ensures a + (b + c) == (a + b) + c
  {
  }

  /** Membership in a concatenation is membership in one of its parts. */
  lemma InAppend<T>(x: T, a: seq<T>, b: seq<T>)
    ensures x in a + b <==> x in a || x in b
  {
  }

  lemma InMiddle<T>(x: T, a: seq<T>, b: seq<T>, c: seq<T>)
    requires x in b
    ensures x in a + b + c
  {
    InAppend(x, a, b);
    InAppend(x, a + b, c);
  }

  /** A value absent from a sequence is absent from every slice of it. */
  lemma NotInSlice<T>(x: T, s: seq<T>, i: int, j: int)
    requires 0 <= i <= j <= |s| && x !in s
    ensures x !in s[i..j]
  {
    forall k | 0 <= k < j - i ensures s[i..j][k] != x {
      assert s[i..j][k] == s[i + k];
    }
  }

  /** A non-empty sequence is its head followed by its tail. */
  lemma HeadTail<T>(s: seq<T>)
    requires s != []
    ensures s == [s[0]] + s[1..]
  {
  }
}

=== FILE: store.dfy ===
/** The post store of run.py: posts, and the merge that puts newly built posts in front of
    the stored ones and sorts everything newest first by timestamp string. */
module Store {
  import opened Seqs
  import Text

  datatype Post = Post(id: string, text: string, url: string, source: string, timestamp: string)

  /** The fields a post copies from the item it was built from. */
  datatype Origin = Origin(id: string, url: string, source: string, timestamp: string)

  function OriginOf(p: Post): Origin {
    Origin(p.id, p.url, p.source, p.timestamp)
  }

  function PostId(p: Post): string {
    p.id
  }

  /** The ids present in a list of posts (`known_ids`). */
  function Ids(posts: seq<Post>): set<string> {
    set p | p in posts :: p.id
  }

  /** `p` sorts no later than `q`: its timestamp string is at least `q`'s. */
  predicate NotOlder(p: Post, q: Post) {
    Text.LexLe(q.timestamp, p.timestamp)
  }

  /** Every post's timestamp is at least that of every post after it. */
  predicate NewestFirst(ps: seq<Post>) {
    forall i, j :: 0 <= i < j < |ps| ==> NotOlder(ps[i], ps[j])
  }

  /** The posts carrying timestamp `t`, in order. */
  function WithStamp(ps: seq<Post>, t: string): (r: seq<Post>)
    ensures forall p :: p in r <==> p in ps && p.timestamp == t
  {
    if ps == [] then []
    else if ps[0].timestamp == t then [ps[0]] + WithStamp(ps[1..], t)
    else WithStamp(ps[1..], t)
  }

  lemma {:induction false} WithStampAppend(a: seq<Post>, b: seq<Post>, t: string)
    ensures WithStamp(a + b, t) == WithStamp(a, t) + WithStamp(b, t)
  {
    if a == [] {
      assert a + b == b;
    } else {
      assert (a + b)[0] == a[0] && (a + b)[1..] == a[1..] + b;
      WithStampAppend(a[1..], b, t);
    }
  }

  /** Dropping the newest post keeps a list newest first. */
  lemma SortedTail(s: seq<Post>)
    requires s != [] && NewestFirst(s)
    ensures NewestFirst(s[1..])
  {
    forall i, j | 0 <= i < j < |s| - 1 ensures NotOlder(s[1..][i], s[1..][j]) {
      assert s[1..][i] == s[i + 1] && s[1..][j] == s[j + 1];
    }
  }

  /** A post no older than every post of a newest-first list can go in front of it. */
  lemma SortedCons(x: Post, s: seq<Post>)
    requires NewestFirst(s)
    requires forall j :: 0 <= j < |s| ==> NotOlder(x, s[j])
    ensures NewestFirst([x] + s)
  {
    var r := [x] + s;
    forall i, j | 0 <= i < j < |r| ensures NotOlder(r[i], r[j]) {
      assert r[j] == s[j - 1];
      if i > 0 { assert r[i] == s[i - 1]; }
    }
  }

  /** Places `x` in front of the first post strictly older than it, so that among equal
      timestamps `x` comes first. */
  function Insert(x: Post, s: seq<Post>): (r: seq<Post>)
    requires NewestFirst(s)
    ensures NewestFirst(r)
    ensures multiset(r) == multiset(s) + multiset{x}
  {
    if s == [] || NotOlder(x, s[0]) then
      assert forall j :: 0 <= j < |s| ==> NotOlder(x, s[j]) by {
        forall j | 0 < j < |s| ensures NotOlder(x, s[j]) {
          Text.LexTransitive(s[j].timestamp, s[0].timestamp, x.timestamp);
        }
      }
      SortedCons(x, s);
      [x] + s
    else
      Text.LexTotal(x.timestamp, s[0].timestamp);
      SortedTail(s);
      var rest := Insert(x, s[1..]);
      assert s == [s[0]] + s[1..];
      assert forall j :: 0 <= j < |rest| ==> NotOlder(s[0], rest[j]) by {
        forall j | 0 <= j < |rest| ensures NotOlder(s[0], rest[j]) {
          assert rest[j] in multiset(rest);
          if rest[j] != x {
            var k :| 0 <= k < |s[1..]| && s[1..][k] == rest[j];
            assert s[k + 1] == rest[j];
          }
        }
      }
      SortedCons(s[0], rest);
      [s[0]] + rest
  }

  /** Python's `sort(key=timestamp, reverse=True)`: insertion sort, newest first. */
  function SortNewestFirst(s: seq<Post>): (r: seq<Post>)
    ensures NewestFirst(r)
    ensures multiset(r) == multiset(s)
  {
    if s == [] then []
    else
      assert s == [s[0]] + s[1..];
      Insert(s[0], SortNewestFirst(s[1..]))
  }

  /** Inserting keeps posts of equal timestamp in their order, `x` first. */
  lemma {:induction false} InsertStable(x: Post, s: seq<Post>, t: string)
    requires NewestFirst(s)
    ensures WithStamp(Insert(x, s), t) == WithStamp([x] + s, t)
  {
    if s != [] && !NotOlder(x, s[0]) {
      SortedTail(s);
      InsertStable(x, s[1..], t);
      Text.LexLeRefl(x.timestamp);
      assert x.timestamp != s[0].timestamp;
      var r := Insert(x, s);
      assert r == [s[0]] + Insert(x, s[1..]);
      assert ([s[0]] + Insert(x, s[1..]))[1..] == Insert(x, s[1..]);
      assert ([x] + s)[1..] == s;
      assert ([x] + s[1..])[1..] == s[1..];
      assert s == [s[0]] + s[1..];
    }
  }

  /** The sort is stable: posts of equal timestamp keep their relative order. */
  lemma {:induction false} SortStable(s: seq<Post>, t: string)
    ensures WithStamp(SortNewestFirst(s), t) == WithStamp(s, t)
  {
    if s != [] {
      SortStable(s[1..], t);
      InsertStable(s[0], SortNewestFirst(s[1..]), t);
      assert ([s[0]] + SortNewestFirst(s[1..]))[1..] == SortNewestFirst(s[1..]);
    }
  }

  /** A list already newest first is left as it is. */
  lemma {:induction false} SortKeepsSorted(s: seq<Post>)
    requires NewestFirst(s)
    ensures SortNewestFirst(s) == s
  {
    if s != [] {
      SortedTail(s);
      SortKeepsSorted(s[1..]);
      if |s| > 1 {
        assert NotOlder(s[0], s[1]);
      }
      assert s == [s[0]] + s[1..];
    }
  }

  /** The ids of a list are determined by its multiset of posts. */
  lemma IdsOfPermutation(a: seq<Post>, b: seq<Post>)
    requires multiset(a) == multiset(b)
    ensures Ids(a) == Ids(b)
  {
    assert forall p :: p in a <==> p in b by {
      forall p ensures p in a <==> p in b {
        assert p in a <==> p in multiset(a);
        assert p in b <==> p in multiset(b);
      }
    }
  }

  /** A post whose id is not among a list's distinct ids can go in front of it. */
  lemma DistinctCons(x: Post, s: seq<Post>)
    requires DistinctBy(s, PostId) && x.id !in Ids(s)
    ensures DistinctBy([x] + s, PostId)
  {
    var r := [x] + s;
    forall i, j | 0 <= i < j < |r| ensures PostId(r[i]) != PostId(r[j]) {
      assert r[j] == s[j - 1];
      if i > 0 { assert r[i] == s[i - 1]; }
    }
  }

  /** Dropping the first post keeps ids distinct, and its id does not recur. */
  lemma DistinctTail(s: seq<Post>)
    requires s != [] && DistinctBy(s, PostId)
    ensures DistinctBy(s[1..], PostId) && s[0].id !in Ids(s[1..])
  {
    forall i, j | 0 <= i < j < |s| - 1 ensures PostId(s[1..][i]) != PostId(s[1..][j]) {
      assert s[1..][i] == s[i + 1] && s[1..][j] == s[j + 1];
    }
    forall p | p in s[1..] ensures p.id != s[0].id {
      var k :| 0 <= k < |s| - 1 && s[1..][k] == p;
      assert s[k + 1] == p;
    }
  }

  /** Posts with distinct ids stay distinct when one with a fresh id is inserted. */
  lemma {:induction false} InsertKeepsDistinct(x: Post, s: seq<Post>)
    requires NewestFirst(s) && DistinctBy(s, PostId) && x.id !in Ids(s)
    ensures DistinctBy(Insert(x, s), PostId)
  {
    if s == [] || NotOlder(x, s[0]) {
      DistinctCons(x, s);
    } else {
      var s' := s[1..];
      SortedTail(s);
      DistinctTail(s);
      assert x.id !in Ids(s') by {
        forall p | p in s' ensures p in s { }
      }
      InsertKeepsDistinct(x, s');
      var rest := Insert(x, s');
      assert s[0].id !in Ids(rest) by {
        forall p | p in rest ensures p.id != s[0].id {
          assert p in multiset(rest);
          assert s[0] in s;
        }
      }
      DistinctCons(s[0], rest);
    }
  }

  /** Two lists with distinct ids and no id in common concatenate to a list with distinct ids. */
  lemma DistinctAppend(a: seq<Post>, b: seq<Post>)
    requires DistinctBy(a, PostId) && DistinctBy(b, PostId)
    requires forall p :: p in a ==> p.id !in Ids(b)
    ensures DistinctBy(a + b, PostId)
  {
    var all := a + b;
    forall i, j | 0 <= i < j < |all| ensures PostId(all[i]) != PostId(all[j]) {
      if j < |a| {
        assert all[i] == a[i] && all[j] == a[j];
      } else if |a| <= i {
        assert all[i] == b[i - |a|] && all[j] == b[j - |a|];
      } else {
        assert all[i] == a[i] && all[j] == b[j - |a|];
        assert a[i] in a;
        assert all[j] in b;
      }
    }
  }

  /** Sorting keeps ids distinct. */
  lemma {:induction false} SortKeepsDistinct(s: seq<Post>)
    requires DistinctBy(s, PostId)
    ensures DistinctBy(SortNewestFirst(s), PostId)
  {
    if s != [] {
      var s' := s[1..];
      DistinctTail(s);
      SortKeepsDistinct(s');
      IdsOfPermutation(SortNewestFirst(s'), s');
      InsertKeepsDistinct(s[0], SortNewestFirst(s'));
    }
  }

  /** `posts = new_posts + posts; posts.sort(key=timestamp, reverse=True)`. */
  function Merge(newPosts: seq<Post>, posts: seq<Post>): (r: seq<Post>)
    ensures NewestFirst(r)
    ensures multiset(r) == multiset(newPosts) + multiset(posts)
    ensures |r| == |newPosts| + |posts|
  {
    var r := SortNewestFirst(newPosts + posts);
    assert |r| == |multiset(r)|;
    r
  }

  /** At equal timestamps new posts precede old ones, each group in its original order. */
  lemma MergeStable(newPosts: seq<Post>, posts: seq<Post>, t: string)
    ensures WithStamp(Merge(newPosts, posts), t) == WithStamp(newPosts, t) + WithStamp(posts, t)
  {
    SortStable(newPosts + posts, t);
    WithStampAppend(newPosts, posts, t);
  }
}

=== FILE: summarize.dfy ===
/** Text preparation around the summarisation call (summarize.py). The model API is an
    oracle from prompt to response text; `None` stands for any exception on that path. */
module Summarize {
  import opened Options
  import opened Seqs
  import Text

  /** Summaries are cut to this many characters. */
  const MaxSummaryLength: nat := 140

  /** The fixed instruction that precedes the article text in the prompt. */
  const Instruction: string :=
    "Summarize the following article in 140 characters or fewer. "
    + "Write one punchy, informative sentence. "
    + "Do not use hashtags. Return only the summary, nothing else.\n\n"

  // ---------------------------------------------------------------- tag stripping

  /** The regular expression `<[^>]+>` matches at position `i`: a `<`, at least one
      character other than `>` (newlines included), then a `>`. */
  predicate TagAt(s: string, i: nat) {
    i + 1 < |s| && s[i] == '<' && s[i + 1] != '>' && '>' in s[i + 2..]
  }

  /** The pattern matches somewhere in `s`. */
  predicate HasTag(s: string) {
    exists i :: 0 <= i < |s| && TagAt(s, i)
  }

  /** Index of the first `c` in `s`, or `|s|`. */
  function Find(s: string, c: char): (k: nat)
    ensures k <= |s|
    ensures k < |s| ==> s[k] == c
    ensures c !in s[..k]
  {
    if s == [] || s[0] == c then 0
    else
      var k := 1 + Find(s[1..], c);
      assert s[..k] == [s[0]] + s[1..][..k - 1];
      k
  }

  /** `re.sub(r"<[^>]+>", "", s)`: scanning left to right, every match is deleted; a match
      runs from a `<` to the first `>` after it. */
  function StripTags(s: string): (r: string)
    ensures IsSubseq(r, s)
    decreases |s|
  {
    if s == [] then []
    else if TagAt(s, 0) then
      var close := 2 + Find(s[2..], '>');
      var r := StripTags(s[close + 1..]);
      SubseqOfSuffix(r, s, close + 1);
      r
    else
      var r := StripTags(s[1..]);
      assert ([s[0]] + r)[1..] == r;
      [s[0]] + r
  }

  /** The first `c` after a stretch without `c` is found right after that stretch. */
  lemma {:induction false} FindAfter(a: string, c: char, b: string)
    requires c !in a
    ensures Find(a + [c] + b, c) == |a|
  {
    if a != [] {
      assert (a + [c] + b)[1..] == a[1..] + [c] + b;
      FindAfter(a[1..], c, b);
    }
  }

  /** Text before the first `<` is kept as it is. */
  lemma {:induction false} StripTagsKeepsPlain(u: string, v: string)
    requires '<' !in u
    ensures StripTags(u + v) == u + StripTags(v)
  {
    if u != [] {
      AppendHeadTail(u, v);
      assert u[0] in u && !TagAt(u + v, 0);
      assert StripTags(u + v) == [u[0]] + StripTags(u[1..] + v);
      assert '<' !in u[1..] by {
        forall k | 0 <= k < |u| - 1 ensures u[1..][k] != '<' {
          assert u[1..][k] == u[k + 1] && u[k + 1] in u;
        }
      }
      StripTagsKeepsPlain(u[1..], v);
      assert [u[0]] + (u[1..] + StripTags(v)) == u + StripTags(v) by {
        ConsAppend(u, StripTags(v));
      }
    } else {
      assert u + v == v && u + StripTags(v) == StripTags(v);
    }
  }

  /** A complete tag is dropped and scanning resumes right after its `>`. */
  lemma StripTagsDropsTag(t: string, v: string)
    requires t != [] && '>' !in t
    ensures StripTags("<" + t + ">" + v) == StripTags(v)
  {
    var s := "<" + t + ">" + v;
    assert s[0] == '<' && s[1] == t[0];
    assert s[2..] == t[1..] + ">" + v;
    assert s[|t| + 1] == '>';
    assert '>' !in t[1..] by {
      forall k | 0 <= k < |t| - 1 ensures t[1..][k] != '>' {
        assert t[1..][k] == t[k + 1];
      }
    }
    FindAfter(t[1..], '>', v);
    assert TagAt(s, 0);
    assert s[|t| + 2..] == v;
  }

  /** Where no tag starts, the first character is kept and scanning moves on by one. */
  lemma StripTagsNoTagHere(s: string)
    requires s != [] && !TagAt(s, 0)
    ensures StripTags(s) == [s[0]] + StripTags(s[1..])
  {
  }

  /** `<>` is no match, since the pattern needs a character between the brackets: both
      brackets stay and scanning goes on after them. */
  lemma StripTagsKeepsEmptyBrackets(v: string)
    ensures StripTags("<>" + v) == "<>" + StripTags(v)
  {
    var s := "<>" + v;
    assert s[0] == '<' && s[1] == '>' by {
      AppendHeadTail("<>", v);
    }
    assert !TagAt(s, 0) by {
      assert s[1] == '>';
    }
    assert s[1..] == ">" + v by {
      AppendHeadTail("<>", v);
      assert "<>"[1..] == ">";
    }
    calc {
      StripTags(s);
    == { StripTagsNoTagHere(s); }
      [s[0]] + StripTags(s[1..]);
    == { StripTagsKeepsPlain(">", v); }
      "<" + (">" + StripTags(v));
    == { AppendAssoc("<", ">", StripTags(v)); }
      "<>" + StripTags(v);
    }
  }

  /** The text around a tag survives: `re.sub` turns `"a<b>c"` into `"ac"`. */
  lemma StripTagsKeepsOutside()
    ensures StripTags("a<b>c") == "ac"
  {
    StripTagsDropsTag("b", "c");
    assert "<b>c" == "<" + "b" + ">" + "c";
    StripTagsKeepsPlain("c", "");
    assert "c" + "" == "c";
    StripTagsKeepsPlain("a", "<b>c");
    assert "a" + "<b>c" == "a<b>c";
  }

  lemma StripTagsShorter(s: string)
    ensures |StripTags(s)| <= |s|
  {
    SubseqLength(StripTags(s), s);
  }

  lemma TagAtShift(s: string, i: nat)
    requires s != []
    ensures TagAt(s, i + 1) <==> TagAt(s[1..], i)
  {
    if i + 2 < |s| {
      assert s[1..][i + 2..] == s[i + 3..];
    }
  }

  lemma NoTagInTail(s: string)
    requires s != [] && !HasTag(s)
    ensures !HasTag(s[1..])
  {
    forall i | 0 <= i < |s[1..]| ensures !TagAt(s[1..], i) {
      TagAtShift(s, i);
    }
  }

  /** Text in which the pattern never matches comes back unchanged. */
  lemma {:induction false} StripTagsIdentity(s: string)
    requires !HasTag(s)
    ensures StripTags(s) == s
    decreases |s|
  {
    if s != [] {
      NoTagInTail(s);
      StripTagsIdentity(s[1..]);
      assert s == [s[0]] + s[1..];
    }
  }

  /** In particular, text without a `<` is unchanged. */
  lemma StripTagsNoAngle(s: string)
    requires '<' !in s
    ensures StripTags(s) == s
  {
    StripTagsIdentity(s);
  }

  /** After one pass no match is left, even where deletions brought characters together. */
  lemma {:induction false} StripTagsLeavesNoTag(s: string)
    ensures !HasTag(StripTags(s))
    decreases |s|
  {
    if s != [] {
      if TagAt(s, 0) {
        var close := 2 + Find(s[2..], '>');
        StripTagsLeavesNoTag(s[close + 1..]);
      } else {
        var rest := StripTags(s[1..]);
        var r := [s[0]] + rest;
        StripTagsLeavesNoTag(s[1..]);
        assert r == StripTags(s);
        if s[0] == '<' && |s| > 1 {
          if s[1] == '>' {
            assert !TagAt(s[1..], 0);
            assert rest[0] == '>';
          } else {
            assert '>' !in s[2..];
            assert '>' !in s[1..] by {
              assert s[1..] == [s[1]] + s[2..];
            }
            SubseqMembers(rest, s[1..]);
            assert '>' !in r[2..] by {
              assert r[2..] == rest[1..];
              assert forall x :: x in rest[1..] ==> x in rest;
            }
          }
        }
        assert !TagAt(r, 0);
        forall i | 0 <= i < |r| ensures !TagAt(r, i) {
          if i > 0 {
            TagAtShift(r, i - 1);
            assert r[1..] == rest;
          }
        }
      }
    }
  }

  /** Stripping twice is stripping once. */
  lemma StripTagsIdempotent(s: string)
    ensures StripTags(StripTags(s)) == StripTags(s)
  {
    StripTagsLeavesNoTag(s);
    StripTagsIdentity(StripTags(s));
  }

  // ---------------------------------------------------------------- prompt and result

  /** `f"{title}. {description}".strip()`, before any tag is removed. */
  function RawContent(title: string, description: string): (c: string)
    ensures exists i, j :: 0 <= i <= j <= |title + ". " + description|
                           && c == (title + ". " + description)[i..j]
                           && Text.AllSpace((title + ". " + description)[..i])
                           && Text.AllSpace((title + ". " + description)[j..])
    ensures Text.Trimmed(c)
  {
    Text.Strip(title + ". " + description)
  }

  /** The article text sent to the model: trimmed first, then stripped of tags. */
  function Content(title: string, description: string): (c: string)
    ensures IsSubseq(c, RawContent(title, description))
    ensures !HasTag(c)
  {
    StripTagsLeavesNoTag(RawContent(title, description));
    StripTags(RawContent(title, description))
  }

  /** The user message: the instruction followed by the article text. */
  function Prompt(title: string, description: string): (p: string)
    ensures Instruction <= p
    ensures p[|Instruction|..] == Content(title, description)
  {
    Instruction + Content(title, description)
  }

  /** Because trimming comes first, whitespace uncovered by removing a tag survives. */
  lemma TrimBeforeStrip()
    ensures Content("<p> Hi", "") == " Hi."
  {
    RawContentExample();
    StripTagsExample();
  }

  lemma RawContentExample()
    ensures RawContent("<p> Hi", "") == "<p> Hi."
  {
    var t := "<p> Hi.";
    assert "<p> Hi" + ". " + "" == [] + t + " ";
    assert Text.Trimmed(t) by {
      assert t[0] == '<' && t[|t| - 1] == '.';
    }
    assert Text.AllSpace(" ");
    Text.StripPadded([], t, " ");
  }

  lemma StripTagsExample()
    ensures StripTags("<p> Hi.") == " Hi."
  {
    var t := "<p> Hi.";
    assert TagAt(t, 0) by { assert t[2..][0] == '>'; }
    assert Find(t[2..], '>') == 0;
    assert t[3..] == " Hi.";
    StripTagsNoAngle(" Hi.");
  }

  /** When the title and description hold no `<`, the prompt carries them verbatim, trimmed. */
  lemma PromptWithoutMarkup(title: string, description: string)
    requires '<' !in title && '<' !in description
    ensures Prompt(title, description) == Instruction + Text.Strip(title + ". " + description)
  {
    var whole := title + ". " + description;
    var raw := RawContent(title, description);
    assert '<' !in whole;
    var i, j :| 0 <= i <= j <= |whole| && raw == whole[i..j];
    NotInSlice('<', whole, i, j);
    StripTagsNoAngle(raw);
  }

  /** `s[:n]`. */
  function Truncate(s: string, n: nat): (r: string)
    ensures r <= s
    ensures |r| == if |s| <= n then |s| else n
  {
    if |s| <= n then s else s[..n]
  }

  /** `text.strip()[:140]`: the model's answer trimmed, then cut to the first 140 characters. */
  function Shorten(answer: string): (s: string)
    ensures s <= Text.Strip(answer)
    ensures |Text.Strip(answer)| <= MaxSummaryLength ==> s == Text.Strip(answer)
    ensures |Text.Strip(answer)| > MaxSummaryLength ==> |s| == MaxSummaryLength
    ensures s == [] || !Text.IsSpace(s[0])
  {
    Truncate(Text.Strip(answer), MaxSummaryLength)
  }

  /** `summarize`: `None` when the model call raises, otherwise the response trimmed and
      cut to at most 140 characters. */
  function Summarize(title: string, description: string, respond: string -> Option<string>): (r: Option<string>)
    ensures r.Some? <==> respond(Prompt(title, description)).Some?
    ensures r.Some? ==> |r.value| <= MaxSummaryLength
    ensures r.Some? ==> r.value == Shorten(respond(Prompt(title, description)).value)
  {
    match respond(Prompt(title, description))
    case None => None
    case Some(text) => Some(Shorten(text))
  }
}

=== FILE: text.dfy ===
/** The slice of Python's `str` behaviour the pipeline relies on: `strip()`, `splitlines()`
    and the code-point lexicographic order used by `<` / `sort`. */
module Text {

  /** Python's `str.isspace()` for one character: the characters `str.strip()` removes. */
  predicate IsSpace(c: char) {
    c in {' ', '\t', '\n', '\r', '\U{000B}', '\U{000C}', '\U{001C}', '\U{001D}', '\U{001E}', '\U{001F}',
          '\U{0085}', '\U{00A0}', '\U{1680}', '\U{2000}', '\U{2001}', '\U{2002}', '\U{2003}', '\U{2004}',
          '\U{2005}', '\U{2006}', '\U{2007}', '\U{2008}', '\U{2009}', '\U{200A}', '\U{2028}', '\U{2029}',
          '\U{202F}', '\U{205F}', '\U{3000}'}
  }

  /** The line boundaries recognised by Python's `str.splitlines()`. */
  predicate IsLineBreak(c: char) {
    c in {'\n', '\r', '\U{000B}', '\U{000C}', '\U{001C}', '\U{001D}', '\U{001E}', '\U{0085}', '\U{2028}', '\U{2029}'}
  }

  predicate AllSpace(s: string) {
    forall i :: 0 <= i < |s| ==> IsSpace(s[i])
  }

  predicate NoLineBreak(s: string) {
    forall i :: 0 <= i < |s| ==> !IsLineBreak(s[i])
  }

  /** Neither end of `s` is whitespace: what `strip()` leaves behind. */
  predicate Trimmed(s: string) {
    s == [] || (!IsSpace(s[0]) && !IsSpace(s[|s| - 1]))
  }

  /** Length of the leading whitespace run. */
  function LeadingSpace(s: string): (n: nat)
    ensures n <= |s| && AllSpace(s[..n])
    ensures n < |s| ==> !IsSpace(s[n])
  {
    if s == [] || !IsSpace(s[0]) then 0
    else
      var n := 1 + LeadingSpace(s[1..]);
      assert forall i :: 1 <= i < n ==> s[..n][i] == s[1..][..n - 1][i - 1];
      n
  }

  /** Start of the trailing whitespace run. */
  function TrailingStart(s: string): (n: nat)
    ensures n <= |s| && AllSpace(s[n..])
    ensures 0 < n ==> !IsSpace(s[n - 1])
  {
    if s == [] || !IsSpace(s[|s| - 1]) then |s|
    else
      var n := TrailingStart(s[..|s| - 1]);
      assert forall i :: 0 <= i < |s| - 1 - n ==> s[n..][i] == s[..|s| - 1][n..][i];
      n
  }

  /** Python's `s.lstrip()`. */
  function StripLeft(s: string): string {
    s[LeadingSpace(s)..]
  }

  /** Python's `s.rstrip()`. */
  function StripRight(s: string): string {
    s[..TrailingStart(s)]
  }

  /** Python's `s.strip()`: the infix left after removing whitespace at both ends. */
  function Strip(s: string): (r: string)
    ensures exists i, j :: 0 <= i <= j <= |s| && r == s[i..j] && AllSpace(s[..i]) && AllSpace(s[j..])
    ensures Trimmed(r)
  {
    var i := LeadingSpace(s);
    var t := s[i..];
    var j := i + TrailingStart(t);
    assert s[i..j] == t[..TrailingStart(t)];
    assert AllSpace(s[j..]) by {
      assert s[j..] == t[TrailingStart(t)..];
    }
    assert s[i..j] != [] ==> s[i..j][0] == s[i];
    StripRight(StripLeft(s))
  }

  lemma {:induction false} LeadingOfPadded(p: string, t: string)
    requires AllSpace(p)
    requires t == [] || !IsSpace(t[0])
    ensures LeadingSpace(p + t) == |p|
  {
    if p != [] {
      assert (p + t)[1..] == p[1..] + t;
      LeadingOfPadded(p[1..], t);
    }
  }

  lemma {:induction false} TrailingOfPadded(t: string, q: string)
    requires AllSpace(q)
    requires t == [] || !IsSpace(t[|t| - 1])
    ensures TrailingStart(t + q) == |t|
  {
    if q != [] {
      assert (t + q)[..|t + q| - 1] == t + q[..|q| - 1];
      TrailingOfPadded(t, q[..|q| - 1]);
    }
  }

  /** `strip()` only removes characters: every character it keeps is one of the input's. */
  lemma StripKeepsLineBreaks(s: string)
    ensures NoLineBreak(s) ==> NoLineBreak(Strip(s))
  {
    var i, j :| 0 <= i <= j <= |s| && Strip(s) == s[i..j] && AllSpace(s[..i]) && AllSpace(s[j..]);
    assert forall k :: 0 <= k < j - i ==> s[i..j][k] == s[i + k];
  }

  /** Whitespace padding around an already-trimmed string is exactly what `strip()` removes. */
  lemma StripPadded(p: string, u: string, q: string)
    requires AllSpace(p) && AllSpace(q) && Trimmed(u)
    ensures Strip(p + u + q) == u
  {
    var s := p + u + q;
    if u == [] {
      assert s == (p + q) + [];
      LeadingOfPadded(p + q, []);
    } else {
      assert s == p + (u + q);
      LeadingOfPadded(p, u + q);
      assert s[|p|..] == u + q;
      TrailingOfPadded(u, q);
    }
  }

  /** `strip()` is idempotent, and it changes nothing on a trimmed string. */
  lemma StripIdempotent(s: string)
    ensures Strip(Strip(s)) == Strip(s)
  {
    StripPadded([], Strip(s), []);
    assert [] + Strip(s) + [] == Strip(s);
  }

  /** Index of the first line boundary, or `|s|` when there is none. */
  function LineEnd(s: string): (k: nat)
    ensures k <= |s|
    ensures NoLineBreak(s[..k])
    ensures k < |s| ==> IsLineBreak(s[k])
  {
    if s == [] || IsLineBreak(s[0]) then 0
    else
      var k := 1 + LineEnd(s[1..]);
      assert forall i :: 1 <= i < k ==> s[..k][i] == s[1..][..k - 1][i - 1];
      k
  }

  /** Python's `s.splitlines()`: the lines without their terminators; `\r\n` is one
      boundary, and a final terminator does not start an empty last line. */
  function SplitLines(s: string): (lines: seq<string>)
    ensures forall k :: 0 <= k < |lines| ==> NoLineBreak(lines[k])
    ensures s == [] ==> lines == []
    decreases |s|
  {
    if s == [] then []
    else
      var k := LineEnd(s);
      var next :=
        if k == |s| then |s|
        else if s[k] == '\r' && k + 1 < |s| && s[k + 1] == '\n' then k + 2
        else k + 1;
      [s[..k]] + SplitLines(s[next..])
  }

  /** A line without boundaries followed by `\n` splits off as exactly that line. */
  lemma SplitLinesCons(u: string, rest: string)
    requires NoLineBreak(u)
    ensures SplitLines(u + "\n" + rest) == [u] + SplitLines(rest)
  {
    SplitLinesBreak(u, '\n', rest);
  }

  /** A final terminator ends the last line and does not start an empty one. */
  lemma SplitLinesFinalBreak(u: string, c: char)
    requires NoLineBreak(u) && IsLineBreak(c)
    ensures SplitLines(u + [c]) == [u]
  {
    if c == '\r' {
      SplitLinesLoneCr(u, []);
      assert u + "\r" + [] == u + [c];
    } else {
      SplitLinesBreak(u, c, []);
      assert u + [c] + [] == u + [c];
    }
  }

  /** The same holds for every single-character boundary other than `\r`. */
  lemma SplitLinesBreak(u: string, c: char, rest: string)
    requires NoLineBreak(u) && IsLineBreak(c) && c != '\r'
    ensures SplitLines(u + [c] + rest) == [u] + SplitLines(rest)
  {
    var s := u + [c] + rest;
    LineEndOf(u, c, rest);
    assert s[..|u|] == u;
    assert s[|u| + 1..] == rest;
  }

  /** `\r\n` is one boundary: the line ends before it and the next one starts after it. */
  lemma SplitLinesCrLf(u: string, rest: string)
    requires NoLineBreak(u)
    ensures SplitLines(u + "\r\n" + rest) == [u] + SplitLines(rest)
  {
    var s := u + "\r\n" + rest;
    assert s == u + ['\r'] + ("\n" + rest);
    LineEndOf(u, '\r', "\n" + rest);
    assert s[..|u|] == u;
    assert s[|u|] == '\r' && s[|u| + 1] == '\n';
    assert s[|u| + 2..] == rest;
  }

  /** A `\r` not followed by `\n` is a boundary of its own. */
  lemma SplitLinesLoneCr(u: string, rest: string)
    requires NoLineBreak(u) && (rest == [] || rest[0] != '\n')
    ensures SplitLines(u + "\r" + rest) == [u] + SplitLines(rest)
  {
    var s := u + "\r" + rest;
    LineEndOf(u, '\r', rest);
    assert s[..|u|] == u;
    assert s[|u|] == '\r';
    assert |u| + 1 < |s| ==> s[|u| + 1] == rest[0];
    assert s[|u| + 1..] == rest;
  }

  /** A non-empty string without boundaries is one line, whether or not a terminator follows. */
  lemma SplitLinesSingle(s: string)
    requires s != [] && NoLineBreak(s)
    ensures SplitLines(s) == [s]
  {
    LineEndWhole(s);
    assert s[..|s|] == s;
  }

  lemma {:induction false} LineEndWhole(s: string)
    requires NoLineBreak(s)
    ensures LineEnd(s) == |s|
  {
    if s != [] {
      assert !IsLineBreak(s[0]);
      assert NoLineBreak(s[1..]) by {
        forall i | 0 <= i < |s| - 1 ensures !IsLineBreak(s[1..][i]) {
          assert s[1..][i] == s[i + 1];
        }
      }
      LineEndWhole(s[1..]);
    }
  }

  lemma {:induction false} LineEndOf(u: string, c: char, rest: string)
    requires NoLineBreak(u) && IsLineBreak(c)
    ensures LineEnd(u + [c] + rest) == |u|
  {
    if u != [] {
      assert (u + [c] + rest)[1..] == u[1..] + [c] + rest;
      LineEndOf(u[1..], c, rest);
    }
  }

  /** Python's `a <= b` on strings: lexicographic by code point, a prefix sorting first. */
  predicate LexLe(a: string, b: string) {
    a == [] || (b != [] && (a[0] < b[0] || (a[0] == b[0] && LexLe(a[1..], b[1..]))))
  }

  lemma {:induction false} LexTotal(a: string, b: string)
    ensures LexLe(a, b) || LexLe(b, a)
  {
    if a != [] && b != [] && a[0] == b[0] {
      LexTotal(a[1..], b[1..]);
    }
  }

  lemma {:induction false} LexAntisymmetric(a: string, b: string)
    requires LexLe(a, b) && LexLe(b, a)
    ensures a == b
  {
    if a != [] && b != [] {
      LexAntisymmetric(a[1..], b[1..]);
      assert a == [a[0]] + a[1..] && b == [b[0]] + b[1..];
    }
  }

  lemma {:induction false} LexTransitive(a: string, b: string, c: string)
    requires LexLe(a, b) && LexLe(b, c)
    ensures LexLe(a, c)
  {
    if a != [] && b != [] && c != [] && a[0] == b[0] && b[0] == c[0] {
      LexTransitive(a[1..], b[1..], c[1..]);
    }
  }

  lemma {:induction false} LexLeRefl(a: string)
    ensures LexLe(a, a)
  {
    if a != [] {
      LexLeRefl(a[1..]);
    }
  }

}
